=== FILE: README.md ===
# Simple Calendar: calendar arithmetic and picker state in Dafny

This project models the core of the Simple Calendar module for Foundry VTT. Three source files are covered:

- **The `Calendar` class's calendar arithmetic.**
  - It converts a signed count of seconds since the start of year zero into a date and time, walking forward from year zero or backward from the last day of the year before it.
  - It splits a span of seconds into an interval of seconds, minutes, hours, days, average months and years.
  - It finds the weekday of a date, with an optional fixed starting weekday per month.
  - It lays out a month as weeks for the month view.
  - It picks the season of a date and the pair of seasons a date's sunrise and sunset are interpolated between, sorting the seasons in place first.
- **The note sheet's state rules.**
  - The dates taken from the date picker are normalised.
  - The repeat options are narrowed by the note's length.
  - The journal entry's permission map is rebuilt in place from the users who may view the note.
  - The current user is toggled in the note's reminder list.
- **The date picker's selection state.**
  - The registry of pickers by id works as get-or-create.
  - The constructor applies defaults, and the end date is the very same object as the start date when no end date is given.
  - A range is selected with two clicks.
  - A time can be added to or removed from both dates.
  - The end time is clamped on a single day.

The calendar shape comes from classes that are not part of this model: `Year`, `Month`, `LeapYearRule` and `Time`. Its values are modelled in `CalendarShape`:
- Each month has common-year and leap-year lengths, intercalary flags and an optional starting weekday.
- The leap-year rule and the weekday day count `dateToDays` are function values.
- `totalNumberOfDays(leap, ignoreIntercalaryRules)` is the sum of the month lengths, leaving out intercalary months that do not count unless the rules are ignored.
- A day has `hoursInDay * minutesInHour * secondsInMinute` seconds.

`Calendar.Valid` asks for positive time units and a positive length for every year. Without these the source's date walks never end.

State the source changes in place is modelled by classes:
- `Calendar.seasons`, which is sorted by `getSeason` and `getSunriseSunsetTime`;
- `NoteSheet.permission` and `NoteSheet.remindUsers`;
- the picker's `PickerDate` objects, so the start/end aliasing is part of the model;
- the registry's map.

The loops of the source are methods with loop invariants:
- the date walks, each with its inner scan past months that have no days;
- the week layout;
- the season scan;
- the two loops of the permission rebuild.

Each loop's method is proved against a specification function or predicate.

A few behaviours of the code are modelled as written:
- The minute of a time of day wraps at `secondsInMinute` and the second wraps at 60.
- A date reached by walking forward gets one added to its day when its year is negative.
- The average month in `secondsToInterval` is the common year over the number of months, since the `map` there keeps every month.
- In the backward walk, a whole-year step keeps the day set for the last month of the later year. The year and month reached are always the ones holding the target day. The day is off only when the walk ends in the last month of a year whose last month has a different length from that of year `yearZero - 1`, and then by that difference (`DateWalks.LastMonthDrift`).
- The second click of a range always hides the calendar. That clears `secondDaySelect` whenever the picker's element is on the page.
- The visible date starts with the start date's all-day flag negated.

## Model

| member | source | states |
|---|---|---|
| CalendarShape.TimeConfig.Decode | src/classes/calendar/index.ts:564-569 | hour < hoursInDay, minute < secondsInMinute, second < 60; for units with minutesInHour <= secondsInMinute <= 60 and a time inside the day, hour, minute and second add back up to the input |
| CalendarShape.TimeConfig.DecodeSteps | src/classes/calendar/index.ts:565-568 | the seconds left after taking off the hours and then the minutes are never negative, and for conventional units the decoded parts add back up to the time |
| CalendarShape.BeforeEpochDayNumber | src/classes/calendar/index.ts:561-579 | for conventional units whose day decodes to midnight, the backward walk ends on day floor(seconds / secondsPerDay), and the decoded time is the remainder seconds mod secondsPerDay |
| CalendarShape.OneSecondBeforeEpoch | src/classes/calendar/index.ts:561-579 | second -1 walks back no days, so it is on the last day before the epoch, at the day's last second |
| CalendarShape.WholeDaysBeforeEpoch | src/classes/calendar/index.ts:560-579 | when a full day decodes to midnight, k whole days before the epoch decodes to 00:00:00 and walks back k - 1 days, because of the midnight decrement |
| CalendarShape.DecodeZero | src/classes/calendar/index.ts:564-569 | the first second of a day decodes to 00:00:00 |
| CalendarShape.MidnightDecodesToZero | src/classes/calendar/index.ts:564-569 | a full day decodes to 00:00:00 when hours times minutes is a multiple of secondsInMinute and the day a multiple of 60 (24/60/60 among them) |
| Seasons.Insert | src/classes/calendar/index.ts:381-383 | inserting after the seasons that start no later keeps the list sorted by (startingMonth, startingDay) and adds exactly the one season |
| Seasons.SortSeasonsCorrect | src/classes/calendar/index.ts:381-383 | the sorted seasons are ordered by (startingMonth, startingDay) and are a permutation of the original list |
| Seasons.SortSeasonsOfSorted | src/classes/calendar/index.ts:381-383 | sorting an already sorted list leaves it unchanged, so sorting again on the next lookup changes nothing |
| Seasons.InsertStartingOn | src/classes/calendar/index.ts:381-383 | inserting a season into a sorted list puts it after every season that starts on the same day, keeping their order |
| Seasons.SortSeasonsStable | src/classes/calendar/index.ts:381-383 | the sort is stable: for every (month, day), the seasons starting on that day appear in the sorted list in the order they had before |
| Seasons.LastStartingBy | src/classes/calendar/index.ts:385-391 | the index returned starts by the date, every later season does not, and -1 means none does |
| Seasons.ScanSeasons | src/classes/calendar/index.ts:385-391 | the scan loop returns the last index whose season starts by (month, day), or -1 |
| Seasons.ActiveSeasonIsPrefixEnd | src/classes/calendar/index.ts:381-391 | over sorted seasons, a season starts by the date exactly when its index is at most the one the scan finds |
| Seasons.ActiveSeasonIsLatestStarted | src/classes/calendar/index.ts:385-396 | the season chosen belongs to the list; it starts by the date and no season starting by the date starts later; when none starts by the date it is the season that starts latest in the year; none exactly when there are no seasons |
| Seasons.Window | src/classes/calendar/index.ts:416-437 | the active index and the next index are valid indices into the seasons; what the window means is stated by WindowBracketsDate and WindowYearRollover |
| Seasons.WindowBracketsDate | src/classes/calendar/index.ts:416-437 | the active season began on or before the date in its chosen year, and the next season begins after the date in its chosen year |
| Seasons.WindowYearRollover | src/classes/calendar/index.ts:428-437 | the season year is the year before exactly when no season starts by the date; the next season's year is one more than the season year only for the last season, and otherwise both are the date's year |
| Calendars.Calendar.GetSeason | src/classes/calendar/index.ts:377-401 | for a non-negative month and day it sorts the seasons in place and answers the active season over the sorted list; otherwise it answers the blank season and leaves the list alone |
| Seasons.PickWindow | src/classes/calendar/index.ts:416-437 | over sorted seasons it answers the season window of the date, and no window when there are no seasons |
| Calendars.Calendar.SunriseSunsetWindow | src/classes/calendar/index.ts:411-437 | it sorts the seasons in place and answers the season window of the date; with no seasons there is no window (the source returns 0) |
| WeekGrid.CeilDivBounds | src/classes/calendar/index.ts:492 | the rounded-up number of weeks covers the remaining days, and one week fewer would not |
| WeekGrid.StartingWeek | src/classes/calendar/index.ts:476-491 | the first week has weekLength cells: blanks up to min(offset, weekLength), then the first days; it also reports how many days it placed |
| WeekGrid.FollowingWeek | src/classes/calendar/index.ts:493-504 | week i + 1 holds, cell by cell, the days whose place in the row-by-row layout falls in it, and blanks past the month's end |
| WeekGrid.RowCount | src/classes/calendar/index.ts:492-505 | 1 + ceil((days - daysInFirstWeek) / weekLength) rows hold every day, and the last row holds at least one |
| WeekGrid.BuildWeeks | src/classes/calendar/index.ts:475-506 | no weeks for an empty month or weekLength <= 0; otherwise every row has weekLength cells, and read row by row the cells are min(offset, weekLength) blanks, days 0..n-1 in order, then blanks, with no trailing empty row |
| WeekGrid.DayPlacement | src/classes/calendar/index.ts:475-504 | each day k appears exactly once, in row (lead + k) / weekLength and column (lead + k) % weekLength |
| Calendars.Calendar.DaysIntoWeeks | src/classes/calendar/index.ts:469-507 | the month's grid, with the month's first day placed in the column of its starting weekday |
| Calendars.JsRemainder | src/classes/calendar/index.ts:533 | JavaScript's remainder lies strictly between -b and b and is the mathematical one for a non-negative dividend |
| Calendars.JsPositiveRemainder | src/classes/calendar/index.ts:533 | (x % L + L) % L with JavaScript remainders is the non-negative remainder of x, negative x included |
| Calendars.Calendar.DayOfTheWeek | src/classes/calendar/index.ts:516-537 | 0 without weekdays; otherwise a weekday in [0, weekdays) equal to the day count mod the week length, using the month's fixed starting weekday when it has one |
| Calendars.Calendar.WeekdayAdvance | src/classes/calendar/index.ts:525-533 | a date whose day count is k more than another's has the weekday k further round the week |
| Calendars.Calendar.FixedStartWeekdays | src/classes/calendar/index.ts:526-528 | in a month with a fixed starting weekday, the next day is the next weekday, and the weekday repeats with the week's length as period |
| Calendars.Calendar.MonthStartingDayOfWeek | src/classes/calendar/index.ts:545-550 | the weekday of day 0 for a counted month in range; 0 for an out-of-range month or an intercalary month left out of the count; never negative and below the week length |
| Calendars.Calendar.WalkForward | src/classes/calendar/index.ts:605-632 | the walk from the first day of year zero ends in a year >= yearZero on a date whose day number is the days walked, with the day inside its month (or day 0 of an empty first month); on the first day of a year it stays in month 0 even when that month has no days, so the one date ForwardSpotUnique allows is the one returned |
| DateWalks.ForwardSpotUnique | src/classes/calendar/index.ts:605-632 | two dates that the forward walk may end on (day inside its month or day 0 of an empty month 0, and month 0 on a year's first day) with the same day number are the same year, month and day |
| Calendars.Calendar.ForwardMonth | src/classes/calendar/index.ts:617-627 | the month step moves to the next month that has days, which exists before the year's end, so the safety counter never runs out |
| Calendars.Calendar.WalkBackward | src/classes/calendar/index.ts:571-604 | the walk from the last day before year zero ends in a year <= yearZero - 1; with no days to walk it stays on that last day; it ends in the month holding the target day (the walked days before that last day), except that on a year's last day it stays in the last month even when that month has no days (then on its day -1); its day number is the target's plus the last month's drift, so it is exact outside the last month and whenever the last month has the same length as in yearZero - 1 |
| DateWalks.BackwardEndUnique | src/classes/calendar/index.ts:571-604 | two ends of the backward walk for the same walk length are the same year, month and day, so the walk's contract fixes its result |
| DateWalks.BackwardYearStep | src/classes/calendar/index.ts:581-587 | a whole-year step back, which takes off the later year's length and keeps the day, keeps the walk's position if and only if the last month has the same length in the two years; a last month of fixed length always does |
| Calendars.Calendar.BackwardStep | src/classes/calendar/index.ts:580-604 | one pass of the backward loop keeps the walk's invariant (year bounds, the target day inside the month or at the month's last day plus the days left, and the day number up to the last month's drift) and strictly lowers twice the days left, plus one in a month with no days |
| Calendars.Calendar.BackwardYear | src/classes/calendar/index.ts:581-587 | the year step moves to year y - 1 with its leap flag on the same month and day, and the days left become the days left less the later year's length, which stay non-negative and strictly drop; it keeps the walk's invariant |
| Calendars.Calendar.BackwardMonth | src/classes/calendar/index.ts:588-601 | the month step moves to the previous month that has days, on its last day, and that month exists, so the index never goes below 0 |
| Calendars.Calendar.SecondsToDate | src/classes/calendar/index.ts:556-645 | the date and time of a second count, from the epoch on and before it, as stated by SinceEpochDate and BeforeEpochDate (whose clauses are given in the rows for DateSinceEpoch and DateBeforeEpoch) |
| Calendars.Calendar.DateSinceEpoch | src/classes/calendar/index.ts:605-644 | time of day = decode(seconds mod day); the year is >= yearZero; day number = floor(seconds / day), on a day inside its month or day 0 of an empty first month, which the first day of a year always stays in (one date only, by ForwardSpotUnique); for conventional units day * secondsPerDay + time == seconds; second 0 is (yearZero, 0, 0 or 1 for a negative yearZero, 00:00:00) |
| Calendars.Calendar.DateBeforeEpoch | src/classes/calendar/index.ts:557-604 | time of day = decode(day - (-seconds mod day)); the year is < yearZero; within a day of the epoch it is the last day of yearZero - 1; the month holds the target day -1 - days walked back, except that a year's last day stays in the last month even when it has no days (one date only, by BackwardEndUnique); day number = target + the last month's drift; for conventional units whose day decodes to midnight, target * secondsPerDay + time == seconds, and so day * secondsPerDay + time == seconds whenever the day does not drift |
| Calendars.Calendar.BackwardDate | src/classes/calendar/index.ts:557-604 | a date where the backward walk ends for a negative second count (one date only, with a year's last day in the last month even when it has no days), with the time of day decoded from the seconds left to the end of the day, meets every clause of BeforeEpochDate, including the round trip to `seconds` for conventional units whose day decodes to midnight |
| Calendars.CarryStep | src/classes/calendar/index.ts:653-665 | each unit step leaves a remainder below the unit and carries the rest up without loss |
| Calendars.CarriesAddUp | src/classes/calendar/index.ts:653-665 | the seconds, minutes, hours and whole days add back up to the span |
| Calendars.MonthBucket | src/classes/calendar/index.ts:667-671 | the days left after the whole average months are at least 0 and below an average month plus a half |
| Calendars.YearSplit | src/classes/calendar/index.ts:673-674 | the months split into whole years and a month of the year in [0, months) |
| Calendars.Calendar.SecondsToInterval | src/classes/calendar/index.ts:651-684 | for a non-negative span every unit lies in range, the month is in [0, months), and the interval adds back up to the span; a negative span stays in the seconds with every other part 0 |
| NoteSheets.IndexOrZero | src/classes/notes/note-sheet.ts:349-352 | a missing or negative month or day index becomes 0; a non-negative one is kept |
| NoteSheets.NormalizeDate | src/classes/notes/note-sheet.ts:357-371 | month and day become valid indices; year, hour, minute and seconds default to 0 when missing |
| NoteSheets.NormalizeIdempotent | src/classes/notes/note-sheet.ts:357-371 | normalising a stored date again changes nothing |
| NoteSheets.NoteSheet.DateSelectorSelect | src/classes/notes/note-sheet.ts:346-374 | when the calendar exists, the note stores both normalised dates and is all day exactly when no time was selected; otherwise nothing changes |
| NoteSheets.NoteSheet.RepeatOptions | src/classes/notes/note-sheet.ts:384-395 | Never is always offered; Yearly iff the span is under a year; Monthly iff it is also under the start month's length; Weekly iff it is also under a week; the labels stay attached to their keys |
| NoteSheets.RepeatKeptMonotone | src/classes/notes/note-sheet.ts:384-395 | a longer span never offers an option a shorter span rules out |
| NoteSheets.NoteSheet.ResetNonOwners | src/classes/notes/note-sheet.ts:415-419 | every entry other than 3 becomes 0, owners are kept, and there are no new keys |
| NoteSheets.NoteSheet.GrantView | src/classes/notes/note-sheet.ts:420-427 | each selected user below 2 becomes 2, owners stay 3, and unselected entries are unchanged |
| NoteSheets.NoteSheet.RebuildPermissions | src/classes/notes/note-sheet.ts:414-427 | after the rebuild the keys are the old keys plus the selected users; a selected user has 3 if they had 3, else 2; any other old entry has 3 if it had 3, else 0 |
| NoteSheets.RebuildIdempotent | src/classes/notes/note-sheet.ts:414-427 | rebuilding a rebuilt map for the same users changes nothing |
| NoteSheets.IndexOf | src/classes/notes/note-sheet.ts:442 | the first index of the user, or -1 exactly when absent |
| NoteSheets.NoteSheet.ReminderChange | src/classes/notes/note-sheet.ts:435-460 | an editor toggles their id in the reminder list; for a non-editor the list is unchanged, since the change goes to the game master |
| NoteSheets.ToggleFlipsMembership | src/classes/notes/note-sheet.ts:442-447 | for a non-empty id on a list without duplicates, membership flips, other users are kept, there are still no duplicates, and toggling an absent id twice restores the list |
| DateSelectors.SelectorRegistry.GetSelector | src/classes/date-selector.ts:22-30 | a registered id returns its picker and leaves the registry unchanged; a new id gets a fresh picker, registered under it |
| DateSelectors.SelectorRegistry.RemoveSelector | src/classes/date-selector.ts:36-40 | the id is no longer registered and every other entry is kept |
| DateSelectors.DateSelector.constructor | src/classes/date-selector.ts:112-211 | the documented defaults; a missing start is (0, 1, 1) all day; a missing end is the start object itself; the visible date copies the start with its all-day flag negated unless overridden; addTime iff the start is not all day |
| DateSelectors.DateSelector.InitialDates | src/classes/date-selector.ts:165-207 | the start, end and visible dates as the constructor builds them, with the end aliased to the start exactly when no end is given |
| DateSelectors.DateSelector.HideCalendar | src/classes/date-selector.ts:362-363 | the range selection is cleared |
| DateSelectors.DayOrOne | src/classes/date-selector.ts:401 | a missing or zero day is stored as 1; any other day is kept |
| DateSelectors.DateSelector.DayClick | src/classes/date-selector.ts:395-426 | the first click sets start and end to the clicked day and hides the calendar iff ranges are off; the second click sets the end from the range's end and the start from its start (unless aliased) and hides the calendar; hiding clears the range selection when the picker's element exists |
| DateSelectors.DateSelector.AddTimeClick | src/classes/date-selector.ts:448-459 | both dates get a time at 00:00, and addTime is set |
| DateSelectors.DateSelector.RemoveTimeClick | src/classes/date-selector.ts:465-475 | both dates become all day at 00:00, and addTime is cleared |
| DateSelectors.ClampEndTime | src/classes/date-selector.ts:482-489 | the clamped end is never before the start and never earlier than the given end; an end already no earlier than the start is kept; its hour is the larger of the two hours |
| DateSelectors.DateSelector.TimeChange | src/classes/date-selector.ts:477-499 | on a single day the stored end time is the clamped end, otherwise the given end; the start time is stored unless start and end are one object |

## Left out

- The PF2E `firstWeekday` hook in `dayOfTheWeek` is not modelled: it is a call into another game system's code.
- The sunrise and sunset interpolation of `getSunriseSunsetTime` is not modelled. It uses floating-point division, `Math.round` and the date utilities `DaysBetweenDates` and `DateToTimestamp`, which are not part of this model.
- `Year`, `Month`, `LeapYearRule` and `Time` are not part of this model. Their members appear as values and function values: the leap-year rule, `dateToDays`, `totalNumberOfDays` and the day length.
- The month's day list (`getDaysForTemplate`) is taken to hold exactly the month's length for the year.
- `toSeconds` and the date-to-seconds utilities are not part of this model. The round trip is stated against the day number defined here: whole years from year zero, plus the months before, plus the day.
- DOM access, HTML rendering, localisation, sockets, journal updates, callbacks and `update()` are left out, as are the other fields set by `writeInputValuesToObjects`, all of them read from the page.
- The current user and the owner-permission test are parameters of `NoteSheet.ReminderChange`. A missing user, where the source does nothing, is not modelled.
- Calendars.Calendar.SecondsToDate: before the epoch, the round trip from date back to seconds is stated only when the day does not drift. When the walk ends in the last month of a year whose last month differs in length from that of year yearZero - 1, the day the source answers is off by that difference; the model states that offset instead.
- Calendars.Calendar.SecondsToDate: it is not stated that every pass of a date walk moves at least one day. A pass that leaves a month with no days moves zero days. Termination is proved with a measure that also counts that case.
- Calendars.Calendar.SecondsToInterval: requires a positive common-year length, where the source divides by zero and yields NaN. The average month is taken as an exact rational, so results can differ from the floating-point ones for very large spans.
- Calendars.Calendar.DaysIntoWeeks: requires the month index to be in range. The source fails on a missing month there.
- Calendars.Calendar.Valid: requires a positive length for every year. Without it the source's date walks do not terminate.
- The JavaScript sort is modelled as a stable insertion sort (`Seasons.SortSeasons`). Engines have sorted stably since ES2019.
- DateSelectors.DateSelector.DayClick: the month index to `numericRepresentation` lookup is a function parameter, and whether the picker's element is on the page is a boolean parameter. The selection callback is not modelled.
- DateSelectors.DateSelector.TimeChange: `DateTheSame` is a function parameter over (year, month, day). The copy of the clamped end back into the caller's options object is not modelled.
- `build`, `activateListeners`, `toggleCalendar`, `calendarClick` and `changeMonthClick` of the date picker are not modelled: they generate HTML and wire events.

=== FILE: arithmetic.dfy ===
/** Facts about integer division and remainder used by the calendar proofs.
    Dafny's `/` and `%` are Euclidean; every use in this model has a positive
    divisor, where they agree with JavaScript's `Math.floor(a / b)` and, for a
    non-negative dividend, with JavaScript's `%`. */
module Arithmetic {

  lemma MulLeMono(x: int, y: int, c: int)
    requires x <= y && c >= 0
    ensures x * c <= y * c
  {
  }

  lemma DivMulLe(a: int, b: int)
    requires b > 0
    ensures (a / b) * b <= a
    ensures a - (a / b) * b == a % b
  {
  }

  lemma ModLe(a: int, m: int)
    requires a >= 0 && m > 0
    ensures 0 <= a % m <= a
  {
    if a % m > a {
      assert a == (a / m) * m + a % m;
      assert a / m < 0;
      MulLeMono(a / m, -1, m);
    }
  }

  lemma ModSmall(a: int, m: int)
    requires 0 <= a < m
    ensures a % m == a && a / m == 0
  {
    DivUnique(a, m, 0, a);
  }

  /** The quotient and remainder are the only ones that fit. */
  lemma DivUnique(a: int, b: int, q: int, r: int)
    requires b > 0 && 0 <= r < b && a == q * b + r
    ensures a / b == q && a % b == r
  {
    var q', r' := a / b, a % b;
    assert a == q' * b + r';
    if q' < q {
      MulLeMono(q' + 1, q, b);
    } else if q' > q {
      MulLeMono(q + 1, q', b);
    }
  }

  /** A dividend below `b * c` gives a quotient below `c`. */
  lemma DivLt(a: int, b: int, c: int)
    requires a >= 0 && b > 0 && a < b * c
    ensures a / b < c
  {
    if a / b >= c {
      MulLeMono(c, a / b, b);
    }
  }

  /** A dividend at least `b * c` gives a quotient at least `c`. */
  lemma DivGe(a: int, b: int, c: int)
    requires b > 0 && a >= b * c
    ensures a / b >= c
  {
    if a / b < c {
      MulLeMono(a / b + 1, c, b);
    }
  }
}

=== FILE: calendar.dfy ===
/** The calendar arithmetic of the Calendar class
    (src/classes/calendar/index.ts): the season of a date, the seasons
    bracketing a date for sunrise and sunset, the month view's weeks, the
    weekday of a date, and the conversions of a second count into a date
    and into an interval. */
module Calendars {
  import opened Wrappers
  import opened Arithmetic
  import opened CalendarShape
  import opened Seasons
  import opened WeekGrid
  import opened DateWalks

  /** The parts of a span of seconds (secondsToInterval). */
  datatype Interval = Interval(seconds: int, minute: int, hour: int, day: int, month: int, year: int)

  /** Math.round(a / b) for b > 0: halves round up. */
  function RoundHalfUp(a: int, b: int): (rounded: int)
    requires b > 0
  {
    (2 * a + b) / (2 * b)
  }

  /** JavaScript's `a % b` for b > 0: the remainder takes the sign of `a`. */
  function JsRemainder(a: int, b: int): (r: int)
    requires b > 0
    ensures -b < r < b
    ensures a >= 0 ==> r == a % b
  {
    if a >= 0 then a % b else -((-a) % b)
  }

  /** `(x % L + L) % L` with JavaScript remainders is the mathematical
      (never negative) remainder of `x`. */
  lemma JsPositiveRemainder(x: int, len: int)
    requires len > 0
    ensures JsRemainder(JsRemainder(x, len) + len, len) == x % len
  {
    if x >= 0 {
      var r := x % len;
      DivMulLe(x, len);
      DivUnique(r + len, len, 1, r);
    } else {
      NegativeRemainder(x, len);
    }
  }

  /** For negative `x` the JavaScript remainder is `-((-x) % len)`, and the
      Euclidean remainder of `x` is `len` minus that, or 0. */
  lemma NegativeRemainder(x: int, len: int)
    requires len > 0 && x < 0
    ensures (-x) % len == 0 ==> x % len == 0
    ensures (-x) % len != 0 ==> x % len == len - (-x) % len && (len - (-x) % len) % len == len - (-x) % len
    ensures len % len == 0
  {
    var a := -x;
    var r := a % len;
    DivMulLe(a, len);
    var q := a / len;
    DivUnique(len, len, 1, 0);
    if r == 0 {
      assert x == (-q) * len + 0;
      DivUnique(x, len, -q, 0);
    } else {
      assert x == (-q - 1) * len + (len - r);
      DivUnique(x, len, -q - 1, len - r);
      ModSmall(len - r, len);
    }
  }

  /** Adding `k` days moves the remainder by `k`. */
  lemma ModShift(a: int, k: int, len: int)
    requires len > 0
    ensures (a + k) % len == (a % len + k) % len
  {
    DivMulLe(a, len);
    var q := a / len;
    var b := a % len + k;
    DivMulLe(b, len);
    assert a + k == (q + b / len) * len + b % len;
    DivUnique(a + k, len, q + b / len, b % len);
  }

  /** One unit step of secondsToInterval: when `a` reaches a whole `unit`,
      the whole units are carried up and the rest stays; both add back to `a`. */
  lemma CarryStep(a: int, unit: int, carried: int, left: int)
    requires a >= 0 && unit > 0
    requires carried == (if a >= unit then a / unit else 0)
    requires left == (if a >= unit then a - carried * unit else a)
    ensures carried >= 0 && 0 <= left < unit && carried * unit + left == a
  {
    DivMulLe(a, unit);
    DivGe(a, unit, 0);
    if a >= unit {
      assert 0 <= left;
      assert a % unit < unit;
    }
  }

  /** The seconds, minutes, hours and whole days carried up add back to the span. */
  lemma CarriesAddUp(seconds: int, spm: int, mph: int, hpd: int,
                     min0: int, sec: int, hour0: int, min: int, dayCount: int, hour: int)
    requires min0 * spm + sec == seconds && hour0 * mph + min == min0 && dayCount * hpd + hour == hour0
    ensures sec + spm * (min + mph * (hour + hpd * dayCount)) == seconds
  {
    assert hour + hpd * dayCount == hour0;
    assert min + mph * hour0 == min0;
  }

  /** The month bucket of secondsToInterval with the average month of
      `daysInYear / monthCount` days, taken exactly: the days left after
      the whole average months are never negative and stay under an average
      month, rounded. */
  lemma MonthBucket(dayCount: int, monthCount: int, daysInYear: int)
    requires dayCount >= 0 && monthCount > 0 && daysInYear > 0
    ensures var monthsTotal := (dayCount * monthCount) / daysInYear;
            var day := dayCount - RoundHalfUp(monthsTotal * daysInYear, monthCount);
            && monthsTotal >= 0
            && 0 <= day
            && 2 * monthCount * day < 2 * daysInYear + monthCount
  {
    var q := dayCount * monthCount;
    var monthsTotal := q / daysInYear;
    MulLeMono(0, dayCount, monthCount);
    DivGe(q, daysInYear, 0);
    DivMulLe(q, daysInYear);
    var md := monthsTotal * daysInYear;
    MulLeMono(0, monthsTotal, daysInYear);
    assert q - daysInYear < md <= q;
    RoundedMonthDays(md, dayCount, monthCount, daysInYear);
  }

  /** Rounding whole average months' days that lie within a year's days
      below `dayCount` months leaves a day count in the same bounds. */
  lemma RoundedMonthDays(md: int, dayCount: int, monthCount: int, daysInYear: int)
    requires dayCount >= 0 && monthCount > 0 && daysInYear > 0
    requires 0 <= md && dayCount * monthCount - daysInYear < md <= dayCount * monthCount
    ensures var day := dayCount - RoundHalfUp(md, monthCount);
            0 <= day && 2 * monthCount * day < 2 * daysInYear + monthCount
  {
    var a := 2 * md + monthCount;
    var b := 2 * monthCount;
    var rounded := a / b;
    DivMulLe(a, b);
    assert a < b * (dayCount + 1);
    DivLt(a, b, dayCount + 1);
    assert rounded * b > a - b;
    assert b * (dayCount - rounded) < 2 * daysInYear + monthCount;
  }

  /** Splitting a count of months into years and months of the year. */
  lemma YearSplit(monthsTotal: int, monthCount: int)
    requires monthsTotal >= 0 && monthCount > 0
    ensures var y := monthsTotal / monthCount;
            y >= 0 && 0 <= monthsTotal - y * monthCount < monthCount
  {
    DivMulLe(monthsTotal, monthCount);
    DivGe(monthsTotal, monthCount, 0);
  }

  class Calendar {
    var year: YearConfig
    var time: TimeConfig
    var weekdays: seq<string>
    var seasons: seq<Season>

    constructor (year: YearConfig, time: TimeConfig, weekdays: seq<string>, seasons: seq<Season>)
      ensures this.year == year && this.time == time
      ensures this.weekdays == weekdays && this.seasons == seasons
    {
      this.year := year;
      this.time := time;
      this.weekdays := weekdays;
      this.seasons := seasons;
    }

    /** The configuration the conversions rely on. */
    ghost predicate Valid()
      reads this
    {
      year.WellFormed() && time.WellFormed()
    }

    //-------------------------------------------------------------------------
    // Seasons
    //-------------------------------------------------------------------------

    /** getSeason: for a date with a non-negative month and day, sorts the
        seasons in place and answers the last season that starts by the date,
        or the last season of the year when none does; None stands for the
        blank season returned for a negative month or day or when there are
        no seasons. */
    method GetSeason(monthIndex: int, dayIndex: int) returns (r: Option<Season>)
      modifies this`seasons
      ensures dayIndex >= 0 && monthIndex >= 0 ==> seasons == SortSeasons(old(seasons))
      ensures !(dayIndex >= 0 && monthIndex >= 0) ==> seasons == old(seasons)
      ensures dayIndex >= 0 && monthIndex >= 0 ==> r == ActiveSeason(seasons, monthIndex, dayIndex)
      ensures !(dayIndex >= 0 && monthIndex >= 0) ==> r == None
    {
      r := None;
      if dayIndex >= 0 && monthIndex >= 0 {
        var sorted := SortSeasons(seasons);
        seasons := sorted;
        var found := ScanSeasons(sorted, monthIndex, dayIndex);
        if found == -1 {
          found := |sorted| - 1;
        }
        if 0 <= found {
          r := Some(sorted[found]);
        }
      }
    }

    /** The first steps of getSunriseSunsetTime: sorts the seasons in place
        and picks the season the date falls in, the next one, and the years
        they start in; None when there are no seasons, where the source
        answers 0. The interpolation that follows is not part of this model. */
    method SunriseSunsetWindow(y: int, monthIndex: int, dayIndex: int) returns (w: Option<SeasonWindow>)
      modifies this`seasons
      ensures seasons == SortSeasons(old(seasons))
      ensures |seasons| == 0 ==> w == None
      ensures |seasons| > 0 ==> w == Some(Window(seasons, y, monthIndex, dayIndex))
    {
      var sorted := SortSeasons(seasons);
      seasons := sorted;
      w := PickWindow(sorted, y, monthIndex, dayIndex);
    }

    //-------------------------------------------------------------------------
    // Weekdays and weeks
    //-------------------------------------------------------------------------

    /** The running day count dayOfTheWeek reduces modulo the week: from the
        month's fixed starting weekday when it has one, otherwise from the
        year's day count and the weekday of the first day of year zero. */
    function DaysSoFar(y: int, monthIndex: int, dayIndex: int): (days: int)
      reads this
    {
      if 0 <= monthIndex < |year.months| && year.months[monthIndex].startingWeekday.Some? then
        dayIndex + year.months[monthIndex].startingWeekday.value - 1
      else
        year.dateToDays(y, monthIndex, dayIndex) + year.firstWeekday
    }

    /** dayOfTheWeek: the 0-based weekday of a date, 0 when the calendar has
        no weekdays. */
    function DayOfTheWeek(y: int, monthIndex: int, dayIndex: int): (r: int)
      reads this
      ensures |weekdays| == 0 ==> r == 0
      ensures |weekdays| > 0 ==> 0 <= r < |weekdays| && r == DaysSoFar(y, monthIndex, dayIndex) % |weekdays|
    {
      if |weekdays| == 0 then 0
      else
        var len := |weekdays|;
        var daysSoFar := DaysSoFar(y, monthIndex, dayIndex);
        JsPositiveRemainder(daysSoFar, len);
        JsRemainder(JsRemainder(daysSoFar, len) + len, len)
    }

    /** When the day count of one date is `k` more than that of another, its
        weekday is `k` further round the week. */
    lemma WeekdayAdvance(y: int, monthIndex: int, d1: int, d2: int, k: int)
      requires |weekdays| > 0
      requires DaysSoFar(y, monthIndex, d2) == DaysSoFar(y, monthIndex, d1) + k
      ensures DayOfTheWeek(y, monthIndex, d2) == (DayOfTheWeek(y, monthIndex, d1) + k) % |weekdays|
    {
      ModShift(DaysSoFar(y, monthIndex, d1), k, |weekdays|);
    }

    /** In a month with a fixed starting weekday, the day after is the next
        weekday, and a whole week later is the same weekday. */
    lemma FixedStartWeekdays(y: int, monthIndex: int, dayIndex: int)
      requires |weekdays| > 0
      requires 0 <= monthIndex < |year.months| && year.months[monthIndex].startingWeekday.Some?
      ensures DayOfTheWeek(y, monthIndex, dayIndex + 1) == (DayOfTheWeek(y, monthIndex, dayIndex) + 1) % |weekdays|
      ensures DayOfTheWeek(y, monthIndex, dayIndex + |weekdays|) == DayOfTheWeek(y, monthIndex, dayIndex)
    {
      var len := |weekdays|;
      WeekdayAdvance(y, monthIndex, dayIndex, dayIndex + 1, 1);
      WeekdayAdvance(y, monthIndex, dayIndex, dayIndex + len, len);
      var r := DayOfTheWeek(y, monthIndex, dayIndex);
      DivUnique(r + len, len, 1, r);
    }

    /** monthStartingDayOfWeek: the weekday of the month's first day, or 0 for
        a month index out of range or an intercalary month left out of the
        weekday count. */
    function MonthStartingDayOfWeek(monthIndex: int, y: int): (r: int)
      reads this
      ensures r >= 0 && (|weekdays| > 0 ==> r < |weekdays|)
      ensures (0 <= monthIndex < |year.months|
               && !(year.months[monthIndex].intercalary && !year.months[monthIndex].intercalaryInclude))
              ==> r == DayOfTheWeek(y, monthIndex, 0)
      ensures !(0 <= monthIndex < |year.months|) ==> r == 0
      ensures (0 <= monthIndex < |year.months|
               && year.months[monthIndex].intercalary && !year.months[monthIndex].intercalaryInclude)
              ==> r == 0
    {
      if monthIndex > -1 && monthIndex < |year.months|
         && !(year.months[monthIndex].intercalary && !year.months[monthIndex].intercalaryInclude)
      then DayOfTheWeek(y, monthIndex, 0)
      else 0
    }

    /** daysIntoWeeks: the month's days laid out in weeks of `weekLength`
        cells, the first day in the column of its weekday (a weekday past the
        week's end leaves the first week blank); no weeks for an empty month
        or a week without days. */
    method DaysIntoWeeks(monthIndex: int, y: int, weekLength: int) returns (weeks: seq<seq<Cell>>)
      requires Valid() && 0 <= monthIndex < |year.months|
      ensures var dayCount := MonthDays(year.months[monthIndex], year.isLeapYear(y));
              && (dayCount == 0 || weekLength <= 0 ==> weeks == [])
              && (dayCount > 0 && weekLength > 0 ==>
                    GridOf(weeks, Min(MonthStartingDayOfWeek(monthIndex, y), weekLength), dayCount, weekLength))
    {
      var dayOfWeekOffset := MonthStartingDayOfWeek(monthIndex, y);
      var isLeapYear := year.isLeapYear(y);
      var dayCount := MonthDays(year.months[monthIndex], isLeapYear);
      weeks := BuildWeeks(dayCount, dayOfWeekOffset, weekLength);
    }

    //-------------------------------------------------------------------------
    // Seconds to a date
    //-------------------------------------------------------------------------

    /** The forward walk of secondsToDate from the first day of year zero:
        whole years, then whole months (skipping months with no days), then
        days. The date reached has the day number `dayCount0`; on the first
        day of a year it stays in month 0, even when that month has no days. */
    method WalkForward(dayCount0: int) returns (y: int, m: int, d: int)
      requires Valid() && dayCount0 >= 0
      ensures y >= year.yearZero && ForwardSpot(year, y, m, d)
      ensures year.DayNumber(y, m, d) == dayCount0
      ensures dayCount0 == 0 ==> y == year.yearZero && m == 0 && d == 0
    {
      var cfg := year;
      var months := cfg.months;
      var n := |months|;
      y := cfg.yearZero;
      var isLeapYear := cfg.isLeapYear(y);
      m := 0;
      d := 0;
      var dayCount := dayCount0;
      while dayCount > 0
        invariant 0 <= m < n && y >= cfg.yearZero && isLeapYear == cfg.isLeapYear(y)
        invariant dayCount >= 0 && d >= 0
        invariant cfg.YearStart(y) + DaysBefore(months, isLeapYear, m) + d + dayCount == dayCount0
        invariant dayCount >= cfg.YearDays(y) ==> m == 0 && d == 0
        invariant dayCount < cfg.YearDays(y) ==> DaysBefore(months, isLeapYear, m) + d + dayCount < cfg.YearDays(y)
        invariant d == 0 || d + dayCount < MonthDays(months[m], isLeapYear)
        invariant m == 0 || MonthDays(months[m], isLeapYear) > 0
        invariant m > 0 ==> DaysBefore(months, isLeapYear, m) + d + dayCount > 0
        invariant dayCount0 == 0 ==> y == cfg.yearZero && m == 0 && d == 0
        decreases 2 * dayCount + (if MonthDays(months[m], isLeapYear) == 0 then 1 else 0)
      {
        var yearTotalDays := TotalNumberOfDays(months, isLeapYear, true);
        var monthDays := MonthDays(months[m], isLeapYear);
        if dayCount >= yearTotalDays {
          y := y + 1;
          isLeapYear := cfg.isLeapYear(y);
          dayCount := dayCount - yearTotalDays;
        } else if dayCount >= monthDays {
          m, dayCount := ForwardMonth(cfg, isLeapYear, m, dayCount);
        } else {
          d := d + 1;
          dayCount := dayCount - 1;
        }
      }
    }

    /** The month step of the forward walk: on to the next month that has
        days this year (the safety counter never runs out, since the days
        left lie before the year's end). */
    static method ForwardMonth(cfg: YearConfig, isLeapYear: bool, m0: int, dayCount: int)
      returns (m: int, dayCountLeft: int)
      requires cfg.WellFormed() && 0 <= m0 < |cfg.months|
      requires MonthDays(cfg.months[m0], isLeapYear) <= dayCount
      requires DaysBefore(cfg.months, isLeapYear, m0) + dayCount < TotalNumberOfDays(cfg.months, isLeapYear, true)
      ensures m0 < m < |cfg.months| && MonthDays(cfg.months[m], isLeapYear) > 0
      ensures dayCountLeft == dayCount - MonthDays(cfg.months[m0], isLeapYear) && dayCountLeft >= 0
      ensures DaysBefore(cfg.months, isLeapYear, m) == DaysBefore(cfg.months, isLeapYear, m0) + MonthDays(cfg.months[m0], isLeapYear)
    {
      var months := cfg.months;
      var n := |months|;
      var monthDays := MonthDays(months[m0], isLeapYear);
      dayCountLeft := dayCount - monthDays;
      m := m0 + 1;
      assert m < n;
      var newMonthDays := MonthDays(months[m], isLeapYear);
      var safetyCounter := 0;
      while newMonthDays == 0 && safetyCounter <= n
        invariant m0 < m < n && safetyCounter == m - m0 - 1
        invariant newMonthDays == MonthDays(months[m], isLeapYear)
        invariant DaysBefore(months, isLeapYear, m) == DaysBefore(months, isLeapYear, m0) + monthDays
        decreases n - m
      {
        assert m + 1 < n;
        m := m + 1;
        newMonthDays := MonthDays(months[m], isLeapYear);
        safetyCounter := safetyCounter + 1;
      }
    }

    /** The backward walk of secondsToDate from the last day of the year
        before year zero: whole years, then whole months (skipping months
        with no days), then days. The target day lies `dayCount0` days (none
        if negative) before that last day. The walk ends in the month that
        holds the target day, or on an empty last month whose year ends just
        after it, and on the target day itself except for the last month's
        drift: a whole-year step keeps the day set for the later year. */
    method WalkBackward(dayCount0: int) returns (y: int, m: int, d: int)
      requires Valid()
      ensures BackwardEnd(year, if dayCount0 < 0 then 0 else dayCount0, y, m, d)
    {
      var cfg := year;
      var months := cfg.months;
      var n := |months|;
      y := cfg.yearZero - 1;
      var isLeapYear := cfg.isLeapYear(y);
      m := n - 1;
      d := MonthDays(months[m], isLeapYear) - 1;
      var dayCount := dayCount0;
      BackwardStart(cfg, dayCount0);
      while dayCount > 0
        invariant BackwardInv(cfg, dayCount0, y, isLeapYear, m, d, dayCount)
        decreases BackwardMeasure(cfg, isLeapYear, m, dayCount)
      {
        y, isLeapYear, m, d, dayCount := BackwardStep(cfg, dayCount0, y, isLeapYear, m, d, dayCount);
      }
    }

    /** One pass of the backward walk's loop: a whole year back when the days
        left fill the year, else a month back when they fill the month, else
        one day back. */
    static method BackwardStep(cfg: YearConfig, ghost dayCount0: int,
                               y0: int, isLeapYear0: bool, m0: int, d0: int, daysLeft: int)
      returns (y: int, isLeapYear: bool, m: int, d: int, dayCount: int)
      requires BackwardInv(cfg, dayCount0, y0, isLeapYear0, m0, d0, daysLeft) && daysLeft > 0
      ensures BackwardInv(cfg, dayCount0, y, isLeapYear, m, d, dayCount)
      ensures BackwardMeasure(cfg, isLeapYear, m, dayCount) < BackwardMeasure(cfg, isLeapYear0, m0, daysLeft)
    {
      var months := cfg.months;
      y, isLeapYear, m, d, dayCount := y0, isLeapYear0, m0, d0, daysLeft;
      var yearTotalDays := TotalNumberOfDays(months, isLeapYear, true);
      var monthDays := MonthDays(months[m], isLeapYear);
      if dayCount >= yearTotalDays {
        y, isLeapYear, dayCount := BackwardYear(cfg, dayCount0, y0, isLeapYear0, m0, d0, daysLeft);
      } else if dayCount >= monthDays {
        m, d, dayCount := BackwardMonth(cfg, isLeapYear, m, dayCount);
        BackwardMonthKeeps(cfg, dayCount0, y, isLeapYear, m0, d0, daysLeft, m, d);
      } else {
        BackwardDayKeeps(cfg, dayCount0, y, isLeapYear, m, d, dayCount);
        d := d - 1;
        dayCount := dayCount - 1;
      }
    }

    /** The year step of the backward walk: the previous year, on the same
        month and day, with the later year's length taken off the days
        left, which stay non-negative and strictly drop. */
    static method BackwardYear(cfg: YearConfig, ghost dayCount0: int,
                               y0: int, isLeapYear0: bool, m: int, d: int, daysLeft: int)
      returns (y: int, isLeapYear: bool, dayCount: int)
      requires BackwardInv(cfg, dayCount0, y0, isLeapYear0, m, d, daysLeft) && daysLeft > 0
      requires daysLeft >= TotalNumberOfDays(cfg.months, isLeapYear0, true)
      ensures y == y0 - 1 && isLeapYear == cfg.isLeapYear(y0 - 1)
      ensures dayCount == daysLeft - TotalNumberOfDays(cfg.months, isLeapYear0, true)
      ensures 0 <= dayCount < daysLeft
      ensures BackwardInv(cfg, dayCount0, y, isLeapYear, m, d, dayCount)
      ensures BackwardMeasure(cfg, isLeapYear, m, dayCount) < BackwardMeasure(cfg, isLeapYear0, m, daysLeft)
    {
      BackwardYearKeeps(cfg, dayCount0, y0, isLeapYear0, m, d, daysLeft);
      y := y0 - 1;
      isLeapYear := cfg.isLeapYear(y);
      dayCount := daysLeft - TotalNumberOfDays(cfg.months, isLeapYear0, true);
    }

    /** The month step of the backward walk: back to the previous month that
        has days this year, on its last day (the safety counter never runs
        out, since the days left lie after the year's start). */
    static method BackwardMonth(cfg: YearConfig, isLeapYear: bool, m0: int, dayCount: int)
      returns (m: int, d: int, dayCountLeft: int)
      requires cfg.WellFormed() && 0 <= m0 < |cfg.months|
      requires MonthDays(cfg.months[m0], isLeapYear) <= dayCount < DaysBefore(cfg.months, isLeapYear, m0 + 1)
      ensures 0 <= m < m0 && MonthDays(cfg.months[m], isLeapYear) > 0
      ensures d == MonthDays(cfg.months[m], isLeapYear) - 1
      ensures dayCountLeft == dayCount - MonthDays(cfg.months[m0], isLeapYear) && dayCountLeft >= 0
      ensures DaysBefore(cfg.months, isLeapYear, m + 1) == DaysBefore(cfg.months, isLeapYear, m0)
      ensures dayCountLeft < DaysBefore(cfg.months, isLeapYear, m + 1)
    {
      var months := cfg.months;
      var n := |months|;
      var monthDays := MonthDays(months[m0], isLeapYear);
      assert DaysBefore(months, isLeapYear, m0 + 1) == DaysBefore(months, isLeapYear, m0) + monthDays;
      assert m0 > 0;
      m := m0 - 1;
      var newMonthDays := MonthDays(months[m], isLeapYear);
      var safetyCounter := 0;
      while newMonthDays == 0 && safetyCounter <= n
        invariant 0 <= m < m0 && safetyCounter == m0 - 1 - m
        invariant newMonthDays == MonthDays(months[m], isLeapYear)
        invariant DaysBefore(months, isLeapYear, m + 1) == DaysBefore(months, isLeapYear, m0)
        decreases m
      {
        assert DaysBefore(months, isLeapYear, m + 1) == DaysBefore(months, isLeapYear, m) + newMonthDays;
        m := m - 1;
        newMonthDays := MonthDays(months[m], isLeapYear);
        safetyCounter := safetyCounter + 1;
      }
      d := MonthDays(months[m], isLeapYear) - 1;
      dayCountLeft := dayCount - monthDays;
    }

    /** The day number the forward walk's result stands for: secondsToDate
        adds one to the day of a date in a negative year. */
    function ForwardDay(r: DateTime): (dayNumber: int) {
      r.day - (if r.year < 0 then 1 else 0)
    }

    /** What secondsToDate answers from the epoch on: the time of day
        decoded from the seconds into the day; a date in year zero or later
        whose day number is floor(seconds / secondsPerDay) and whose day lies
        in its month (or is day 0 of an empty first month, which the first
        day of a year always stays in); for conventional time units, date and time together give back `seconds`; second 0 is
        the first day of year zero at midnight. */
    ghost predicate SinceEpochDate(seconds: int, r: DateTime)
      reads this
      requires Valid() && seconds >= 0
    {
      && Clock(r.hour, r.minute, r.seconds) == time.Decode(seconds % time.SecondsPerDay())
      && r.year >= year.yearZero && ForwardSpot(year, r.year, r.month, ForwardDay(r))
      && 0 <= r.month < |year.months|
      && year.DayNumber(r.year, r.month, ForwardDay(r)) == seconds / time.SecondsPerDay()
      && (time.Conventional() ==>
            year.DayNumber(r.year, r.month, ForwardDay(r)) * time.SecondsPerDay()
            + time.ClockSeconds(Clock(r.hour, r.minute, r.seconds)) == seconds)
      && (seconds == 0 ==> r == DateTime(year.yearZero, 0, if year.yearZero < 0 then 1 else 0, 0, 0, 0))
    }

    /** What secondsToDate answers before the epoch, with the target day
        DaysBackFromEpoch days before the last day of the year before year
        zero: the time of day decoded from the seconds left to the end of the
        day; a date before year zero; within a day of the epoch, that last
        day; a month that holds the target day (or an empty last month whose
        year ends just after it); a day that is the target day but for the
        last month's drift; and for conventional units whose day decodes to
        midnight, the target day and the time together give back `seconds`,
        so the date does too whenever it does not drift. */
    ghost predicate BeforeEpochDate(seconds: int, r: DateTime)
      reads this
      requires Valid() && seconds < 0
    {
      var spd := time.SecondsPerDay();
      var target := -1 - time.DaysBackFromEpoch(seconds);
      var clock := Clock(r.hour, r.minute, r.seconds);
      DayLengthPositive(time);
      && clock == time.Decode(spd - (-seconds) % spd)
      && BackwardEnd(year, time.DaysBackFromEpoch(seconds), r.year, r.month, r.day)
      && 0 <= r.month < |year.months|
      && (time.Conventional() && time.Decode(spd) == Clock(0, 0, 0) ==>
            && target * spd + time.ClockSeconds(clock) == seconds
            && (LastMonthDrift(year, r.year, r.month) == 0 ==>
                  year.DayNumber(r.year, r.month, r.day) * spd + time.ClockSeconds(clock) == seconds))
    }

    /** secondsToDate: the date and time of a second count since the start of
        year zero, walking forward from the epoch or back from it. */
    method SecondsToDate(seconds: int) returns (r: DateTime)
      requires Valid()
      ensures seconds >= 0 ==> SinceEpochDate(seconds, r)
      ensures seconds < 0 ==> BeforeEpochDate(seconds, r)
    {
      var spd := time.SecondsPerDay();
      DayLengthPositive(time);
      var beforeYearZero := seconds < 0;
      var abs := if beforeYearZero then -seconds else seconds;
      var dayCount := abs / spd;
      var rest := abs - dayCount * spd;
      DivMulLe(abs, spd);
      DivGe(abs, spd, 0);
      var timeOfDaySeconds := if beforeYearZero then spd - rest else rest;
      var clock := time.Decode(timeOfDaySeconds);
      if beforeYearZero {
        r := DateBeforeEpoch(seconds, dayCount, clock);
      } else {
        r := DateSinceEpoch(seconds, dayCount, clock);
      }
    }

    /** The forward branch of secondsToDate. */
    method DateSinceEpoch(seconds: int, dayCount: int, clock: Clock) returns (r: DateTime)
      requires Valid() && seconds >= 0
      requires dayCount == seconds / time.SecondsPerDay() && clock == time.Decode(seconds % time.SecondsPerDay())
      ensures SinceEpochDate(seconds, r)
    {
      var spd := time.SecondsPerDay();
      DayLengthPositive(time);
      DivGe(seconds, spd, 0);
      var y, m, d := WalkForward(dayCount);
      if y < 0 {
        d := d + 1;
      }
      r := DateTime(y, m, d, clock.hour, clock.minute, clock.second);
      if seconds == 0 {
        DecodeZero(time);
        ModSmall(0, spd);
      }
      if time.Conventional() {
        DivMulLe(seconds, spd);
        ModLe(seconds, spd);
        assert time.ClockSeconds(clock) == seconds % spd;
      }
    }

    /** The backward branch of secondsToDate: a time of day that decodes to
        midnight takes one day off the walk. */
    method DateBeforeEpoch(seconds: int, dayCount: int, clock: Clock) returns (r: DateTime)
      requires Valid() && seconds < 0
      requires dayCount == (-seconds) / time.SecondsPerDay()
      requires clock == time.Decode(time.SecondsPerDay() - (-seconds) % time.SecondsPerDay())
      ensures BeforeEpochDate(seconds, r)
    {
      var spd := time.SecondsPerDay();
      DayLengthPositive(time);
      var walked := dayCount;
      if clock.hour == 0 && clock.minute == 0 && clock.second == 0 {
        walked := walked - 1;
      }
      assert (if walked < 0 then 0 else walked) == time.DaysBackFromEpoch(seconds);
      var y, m, d := WalkBackward(walked);
      r := DateTime(y, m, d, clock.hour, clock.minute, clock.second);
      BackwardDate(seconds, r);
    }

    /** A time of day decoded from the seconds left to the end of the day,
        on a date where the backward walk ends for that second count, is the
        answer BeforeEpochDate describes. */
    lemma BackwardDate(seconds: int, r: DateTime)
      requires Valid() && seconds < 0
      requires Clock(r.hour, r.minute, r.seconds) == time.Decode(time.SecondsPerDay() - (-seconds) % time.SecondsPerDay())
      requires BackwardEnd(year, time.DaysBackFromEpoch(seconds), r.year, r.month, r.day)
      ensures BeforeEpochDate(seconds, r)
    {
      var spd := time.SecondsPerDay();
      DayLengthPositive(time);
      if time.Conventional() && time.Decode(spd) == Clock(0, 0, 0) {
        BeforeEpochSeconds(time, seconds, -1 - time.DaysBackFromEpoch(seconds));
      }
    }

    //-------------------------------------------------------------------------
    // Seconds to an interval
    //-------------------------------------------------------------------------

    /** secondsToInterval: splits a span of seconds into seconds, minutes,
        hours and days, then the days into average months (a common year's
        day count over the number of months) and the months into years. For a
        non-negative span every part lies within its unit, the days stay
        under an average month, and the parts add back up to the span; a
        negative span is left in the seconds. */
    function SecondsToInterval(seconds: int): (r: Interval)
      reads this
      requires time.WellFormed() && |year.months| > 0 && TotalNumberOfDays(year.months, false, false) > 0
      ensures seconds < 0 ==> r == Interval(seconds, 0, 0, 0, 0, 0)
      ensures seconds >= 0 ==>
                var n := |year.months|;
                var daysInYear := TotalNumberOfDays(year.months, false, false);
                && 0 <= r.seconds < time.secondsInMinute
                && 0 <= r.minute < time.minutesInHour
                && 0 <= r.hour < time.hoursInDay
                && 0 <= r.month < n && r.year >= 0 && r.day >= 0
                && 2 * n * r.day < 2 * daysInYear + n
                && r.seconds + time.secondsInMinute * (r.minute + time.minutesInHour * (r.hour + time.hoursInDay
                     * (r.day + RoundHalfUp((r.year * n + r.month) * daysInYear, n)))) == seconds
    {
      var spm := time.secondsInMinute;
      var mph := time.minutesInHour;
      var hpd := time.hoursInDay;
      var min0 := if seconds >= spm then seconds / spm else 0;
      var sec := if seconds >= spm then seconds - min0 * spm else seconds;
      var hour0 := if min0 >= mph then min0 / mph else 0;
      var min := if min0 >= mph then min0 - hour0 * mph else min0;
      var dayCount := if hour0 >= hpd then hour0 / hpd else 0;
      var hour := if hour0 >= hpd then hour0 - dayCount * hpd else hour0;
      var daysInYear := TotalNumberOfDays(year.months, false, false);
      // The source divides by `months.map(m => !m.intercalary).length`, which
      // is the number of months: the map keeps every entry.
      var n := |year.months|;
      var monthsTotal := (dayCount * n) / daysInYear;
      var day := dayCount - RoundHalfUp(monthsTotal * daysInYear, n);
      var y := monthsTotal / n;
      var month := monthsTotal - y * n;
      if seconds < 0 then
        assert min0 == 0 && hour0 == 0 && dayCount == 0;
        assert monthsTotal == 0 && y == 0 && day == 0 by { ModSmall(0, daysInYear); ModSmall(0, n); ModSmall(n, 2 * n); }
        Interval(sec, min, hour, day, month, y)
      else
        CarryStep(seconds, spm, min0, sec);
        CarryStep(min0, mph, hour0, min);
        CarryStep(hour0, hpd, dayCount, hour);
        CarriesAddUp(seconds, spm, mph, hpd, min0, sec, hour0, min, dayCount, hour);
        MonthBucket(dayCount, n, daysInYear);
        YearSplit(monthsTotal, n);
        assert day + RoundHalfUp((y * n + month) * daysInYear, n) == dayCount;
        Interval(sec, min, hour, day, month, y)
    }
  }
}
=== FILE: calendar_shape.dfy ===
/** The shape of a user-defined calendar as the calendar arithmetic reads it:
    the months of a year, the leap-year rule, the year-zero reference point and
    the time units of a day. The classes that hold these in the system (Year,
    Month, LeapYearRule and Time under src/classes/) are not part of this model;
    their few members that the arithmetic calls are modelled here as values. */
module CalendarShape {
  import opened Wrappers
  import opened Arithmetic

  /** A month: its day counts in common and leap years, whether it is
      intercalary (outside the regular cycle) and, if so, whether it still
      counts towards weekdays, and an optional fixed starting weekday (1-based). */
  datatype Month = Month(
    numberOfDays: int,
    numberOfLeapYearDays: int,
    intercalary: bool,
    intercalaryInclude: bool,
    startingWeekday: Option<int>)

  /** The length of a month in a leap or a common year. */
  function MonthDays(m: Month, leap: bool): (days: int) {
    if leap then m.numberOfLeapYearDays else m.numberOfDays
  }

  /** Whether a month is summed into the length of the year. */
  predicate Counted(m: Month, ignoreIntercalaryRules: bool) {
    ignoreIntercalaryRules || !m.intercalary || m.intercalaryInclude
  }

  /** The days of the first `k` months, skipping the months that `Counted` leaves out. */
  function SumDays(months: seq<Month>, leap: bool, ignoreIntercalaryRules: bool, k: nat): (days: int)
    requires k <= |months|
  {
    if k == 0 then 0
    else SumDays(months, leap, ignoreIntercalaryRules, k - 1)
         + (if Counted(months[k - 1], ignoreIntercalaryRules) then MonthDays(months[k - 1], leap) else 0)
  }

  /** The year's `totalNumberOfDays(leapYear, ignoreIntercalaryRules)`. */
  function TotalNumberOfDays(months: seq<Month>, leap: bool, ignoreIntercalaryRules: bool): (days: int) {
    SumDays(months, leap, ignoreIntercalaryRules, |months|)
  }

  /** The days of all months before month `k`. */
  function DaysBefore(months: seq<Month>, leap: bool, k: nat): (days: int)
    requires k <= |months|
  {
    SumDays(months, leap, true, k)
  }

  predicate NonNegativeDays(months: seq<Month>) {
    forall i :: 0 <= i < |months| ==> months[i].numberOfDays >= 0 && months[i].numberOfLeapYearDays >= 0
  }

  lemma {:induction false} SumDaysNonNegative(months: seq<Month>, leap: bool, ignoreIntercalaryRules: bool, k: nat)
    requires k <= |months| && NonNegativeDays(months)
    ensures SumDays(months, leap, ignoreIntercalaryRules, k) >= 0
  {
    if k > 0 {
      SumDaysNonNegative(months, leap, ignoreIntercalaryRules, k - 1);
    }
  }

  /** The year object: its months, the year whose first day is the epoch, the
      weekday of that first day, the leap-year rule and the weekday day count
      `dateToDays` (both of the last as opaque functions of their arguments). */
  datatype YearConfig = YearConfig(
    months: seq<Month>,
    yearZero: int,
    firstWeekday: int,
    isLeapYear: int -> bool,
    dateToDays: (int, int, int) -> int)
  {
    /** What the date walks need: a month list, no negative day counts, and
        a positive number of days in every year. */
    ghost predicate WellFormed() {
      && |months| > 0
      && NonNegativeDays(months)
      && forall y: int :: TotalNumberOfDays(months, isLeapYear(y), true) > 0
    }

    /** The number of days in year `y`, intercalary months included. */
    function YearDays(y: int): (days: int) {
      TotalNumberOfDays(months, isLeapYear(y), true)
    }

    /** The day number (days since the epoch) of the first day of year `y`. */
    function YearStart(y: int): (dayNumber: int)
      decreases if y < yearZero then yearZero - y else y - yearZero
    {
      if y == yearZero then 0
      else if y > yearZero then YearStart(y - 1) + YearDays(y - 1)
      else YearStart(y + 1) - YearDays(y)
    }

    /** The day number of day `d` (0-based) of month `m` of year `y`: the
        day count that a date→seconds conversion multiplies by the day length. */
    function DayNumber(y: int, m: int, d: int): (dayNumber: int)
      requires 0 <= m < |months|
    {
      YearStart(y) + DaysBefore(months, isLeapYear(y), m) + d
    }
  }

  /** A time of day as hour, minute and second. */
  datatype Clock = Clock(hour: int, minute: int, second: int)

  /** A calendar date and time: 0-based month and day. */
  datatype DateTime = DateTime(year: int, month: int, day: int, hour: int, minute: int, seconds: int)

  /** The time units of a day. */
  datatype TimeConfig = TimeConfig(hoursInDay: int, minutesInHour: int, secondsInMinute: int)
  {
    predicate WellFormed() {
      hoursInDay > 0 && minutesInHour > 0 && secondsInMinute > 0
    }

    function SecondsPerHour(): (seconds: int) {
      secondsInMinute * minutesInHour
    }

    function SecondsPerDay(): (seconds: int) {
      hoursInDay * minutesInHour * secondsInMinute
    }

    /** The seconds since midnight that a time of day stands for. */
    function ClockSeconds(c: Clock): (seconds: int) {
      c.hour * SecondsPerHour() + c.minute * secondsInMinute + c.second
    }

    /** Units for which the decoding below is exact: an hour has no more
        minutes than a minute has seconds, and a minute has at most 60 seconds. */
    predicate Conventional() {
      minutesInHour <= secondsInMinute <= 60
    }

    /** Splits a time of day into hour, minute and second as secondsToDate
        does: the hour wraps at hoursInDay, the minute wraps at
        secondsInMinute (not minutesInHour) and the second wraps at 60 (not
        secondsInMinute). For Conventional units and a time inside the day the
        three parts add back up to the input. */
    function Decode(t: int): (c: Clock)
      requires WellFormed() && t >= 0
      ensures 0 <= c.hour < hoursInDay && 0 <= c.minute < secondsInMinute && 0 <= c.second < 60
      ensures Conventional() && t < SecondsPerDay() ==> ClockSeconds(c) == t
    {
      var sph := SecondsPerHour();
      var hour := (t / sph) % hoursInDay;
      var rest := t - hour * sph;
      var minute := (rest / secondsInMinute) % secondsInMinute;
      var left := rest - minute * secondsInMinute;
      // The remainders that JavaScript takes here are of non-negative numbers.
      DecodeSteps(t, hour, rest, minute, left);
      Clock(hour, minute, left % 60)
    }

    lemma DecodeSteps(t: int, hour: int, rest: int, minute: int, left: int)
      requires WellFormed() && t >= 0
      requires hour == (t / SecondsPerHour()) % hoursInDay && rest == t - hour * SecondsPerHour()
      requires minute == (rest / secondsInMinute) % secondsInMinute && left == rest - minute * secondsInMinute
      ensures rest >= 0 && left >= 0
      ensures Conventional() && t < SecondsPerDay() ==>
                hour * SecondsPerHour() + minute * secondsInMinute + left % 60 == t
    {
      var sph := SecondsPerHour();
      assert sph > 0 by { MulLeMono(1, minutesInHour, secondsInMinute); }
      RemainderStepNonNegative(t, sph, hoursInDay, hour, rest);
      RemainderStepNonNegative(rest, secondsInMinute, secondsInMinute, minute, left);
      if Conventional() && t < SecondsPerDay() {
        ConventionalSteps(t, hour, rest, minute, left);
      }
    }

    /** For conventional units and a time inside the day, each step of the
        decoding takes the exact quotient, so the parts add back up to `t`. */
    lemma ConventionalSteps(t: int, hour: int, rest: int, minute: int, left: int)
      requires WellFormed() && Conventional() && 0 <= t < SecondsPerDay()
      requires hour == (t / SecondsPerHour()) % hoursInDay && rest == t - hour * SecondsPerHour()
      requires minute == (rest / secondsInMinute) % secondsInMinute && left == rest - minute * secondsInMinute
      ensures hour * SecondsPerHour() + minute * secondsInMinute + left % 60 == t
    {
      DayLengthPositive(this);
      ExactStep(t, SecondsPerHour(), hoursInDay, hour, rest);
      HourRestBound(rest, secondsInMinute, minutesInHour);
      ExactStep(rest, secondsInMinute, secondsInMinute, minute, left);
      ModSmall(left, 60);
    }

    /** The number of days the backward walk of secondsToDate steps back from
        the last day before the epoch, for `seconds < 0`: the whole days in
        |seconds|, less one when the time of day decodes to midnight. */
    function DaysBackFromEpoch(seconds: int): (walk: int)
      requires WellFormed() && seconds < 0
    {
      var spd := SecondsPerDay();
      var walked := (-seconds) / spd - (if Decode(spd - (-seconds) % spd) == Clock(0, 0, 0) then 1 else 0);
      if walked < 0 then 0 else walked
    }
  }

  /** One step of the decoding: taking `u = (t / unit) % wrap` units off `t` leaves a non-negative rest. */
  lemma RemainderStepNonNegative(t: int, unit: int, wrap: int, u: int, rest: int)
    requires t >= 0 && unit > 0 && wrap > 0
    requires u == (t / unit) % wrap && rest == t - u * unit
    ensures rest >= 0
  {
    ModLe(t / unit, wrap);
    MulLeMono(u, t / unit, unit);
    DivMulLe(t, unit);
  }

  /** What is left of an hour is below a minute's worth of minutes when an
      hour has no more minutes than a minute has seconds. */
  lemma HourRestBound(rest: int, secondsInMinute: int, minutesInHour: int)
    requires 0 <= rest < secondsInMinute * minutesInHour
    requires 0 < minutesInHour <= secondsInMinute
    ensures rest < secondsInMinute * secondsInMinute
  {
    MulLeMono(minutesInHour, secondsInMinute, secondsInMinute);
  }

  /** When `t` is below `wrap` units, the step takes the exact quotient and leaves `t % unit`. */
  lemma ExactStep(t: int, unit: int, wrap: int, u: int, rest: int)
    requires t >= 0 && unit > 0 && wrap > 0 && t < unit * wrap
    requires u == (t / unit) % wrap && rest == t - u * unit
    ensures u == t / unit && rest == t % unit && 0 <= rest < unit
  {
    DivLt(t, unit, wrap);
    ModSmall(t / unit, wrap);
    DivMulLe(t, unit);
  }

  /** With conventional units whose full day decodes to midnight (24/60/60
      among them), the backward walk lands on the floor of seconds / secondsPerDay:
      one second before the epoch is the last day before it, and an exact
      multiple of a day is midnight of the day it starts. */
  lemma BeforeEpochDayNumber(time: TimeConfig, seconds: int)
    requires time.WellFormed() && seconds < 0
    requires time.Conventional() && time.Decode(time.SecondsPerDay()) == Clock(0, 0, 0)
    ensures -1 - time.DaysBackFromEpoch(seconds) == seconds / time.SecondsPerDay()
    ensures time.ClockSeconds(time.Decode(time.SecondsPerDay() - (-seconds) % time.SecondsPerDay()))
            == seconds % time.SecondsPerDay()
  {
    DayLengthPositive(time);
    if (-seconds) % time.SecondsPerDay() == 0 {
      BeforeEpochWholeDays(time, seconds);
    } else {
      BeforeEpochPartDay(time, seconds);
    }
  }

  /** Under the conditions of BeforeEpochDayNumber, the day the backward walk
      lands on and the time decoded for it add back up to `seconds`. */
  lemma BeforeEpochSeconds(time: TimeConfig, seconds: int, dayNumber: int)
    requires time.WellFormed() && seconds < 0
    requires time.Conventional() && time.Decode(time.SecondsPerDay()) == Clock(0, 0, 0)
    requires dayNumber == -1 - time.DaysBackFromEpoch(seconds)
    ensures dayNumber * time.SecondsPerDay()
            + time.ClockSeconds(time.Decode(time.SecondsPerDay() - (-seconds) % time.SecondsPerDay()))
            == seconds
  {
    BeforeEpochDayNumber(time, seconds);
    DayLengthPositive(time);
    DivMulLe(seconds, time.SecondsPerDay());
  }

  /** The case of BeforeEpochDayNumber where the seconds are whole days. */
  lemma BeforeEpochWholeDays(time: TimeConfig, seconds: int)
    requires time.WellFormed() && seconds < 0 && time.SecondsPerDay() > 0
    requires time.Decode(time.SecondsPerDay()) == Clock(0, 0, 0)
    requires (-seconds) % time.SecondsPerDay() == 0
    ensures -1 - time.DaysBackFromEpoch(seconds) == seconds / time.SecondsPerDay()
    ensures time.ClockSeconds(time.Decode(time.SecondsPerDay() - (-seconds) % time.SecondsPerDay()))
            == seconds % time.SecondsPerDay()
  {
    var spd := time.SecondsPerDay();
    var a := -seconds;
    var q := a / spd;
    DivMulLe(a, spd);
    assert q >= 1 by { if q <= 0 { MulLeMono(q, 0, spd); } }
    assert seconds == (-q) * spd + 0;
    DivUnique(seconds, spd, -q, 0);
  }

  /** The case of BeforeEpochDayNumber where the seconds end inside a day. */
  lemma BeforeEpochPartDay(time: TimeConfig, seconds: int)
    requires time.WellFormed() && seconds < 0 && time.SecondsPerDay() > 0
    requires time.Conventional()
    requires (-seconds) % time.SecondsPerDay() != 0
    ensures -1 - time.DaysBackFromEpoch(seconds) == seconds / time.SecondsPerDay()
    ensures time.ClockSeconds(time.Decode(time.SecondsPerDay() - (-seconds) % time.SecondsPerDay()))
            == seconds % time.SecondsPerDay()
  {
    var spd := time.SecondsPerDay();
    var a := -seconds;
    var q, rem := a / spd, a % spd;
    DivMulLe(a, spd);
    var tod := spd - rem;
    var c := time.Decode(tod);
    assert time.ClockSeconds(c) == tod;
    assert c != Clock(0, 0, 0);
    assert seconds == (-q - 1) * spd + tod;
    DivUnique(seconds, spd, -q - 1, tod);
  }

  /** One second before the epoch lies on the last day before it (no day is
      walked back) at the day's last second. */
  lemma OneSecondBeforeEpoch(time: TimeConfig)
    requires time.WellFormed() && time.Conventional() && time.SecondsPerDay() > 1
    ensures time.DaysBackFromEpoch(-1) == 0
    ensures time.ClockSeconds(time.Decode(time.SecondsPerDay() - 1 % time.SecondsPerDay())) == time.SecondsPerDay() - 1
  {
    var spd := time.SecondsPerDay();
    ModSmall(1, spd);
    assert time.ClockSeconds(time.Decode(spd - 1)) == spd - 1;
  }

  /** `k` whole days before the epoch is midnight, `k - 1` days back from the
      last day before the epoch, when the day length decodes to midnight. */
  lemma WholeDaysBeforeEpoch(time: TimeConfig, k: int)
    requires time.WellFormed() && k >= 1 && time.Decode(time.SecondsPerDay()) == Clock(0, 0, 0)
    ensures var spd := time.SecondsPerDay();
            && time.Decode(spd - (k * spd) % spd) == Clock(0, 0, 0)
            && time.DaysBackFromEpoch(-(k * spd)) == k - 1
  {
    var spd := time.SecondsPerDay();
    DayLengthPositive(time);
    MulLeMono(1, k, spd);
    DivUnique(k * spd, spd, k, 0);
    assert -(-(k * spd)) == k * spd;
  }

  /** The first second of a day decodes to midnight. */
  lemma DecodeZero(time: TimeConfig)
    requires time.WellFormed()
    ensures time.Decode(0) == Clock(0, 0, 0)
  {
    DayLengthPositive(time);
    ModSmall(0, time.SecondsPerHour());
    ModSmall(0, time.hoursInDay);
    ModSmall(0, time.secondsInMinute);
    ModSmall(0, 60);
  }

  lemma DayLengthPositive(time: TimeConfig)
    requires time.WellFormed()
    ensures time.SecondsPerHour() > 0 && time.SecondsPerDay() > 0
    ensures time.SecondsPerDay() == time.SecondsPerHour() * time.hoursInDay
  {
    MulLeMono(1, time.minutesInHour, time.secondsInMinute);
    MulLeMono(1, time.hoursInDay, time.SecondsPerHour());
  }

  /** The day length decodes to midnight when hoursInDay * minutesInHour is a
      multiple of secondsInMinute and the day length a multiple of 60. */
  lemma MidnightDecodesToZero(time: TimeConfig)
    requires time.WellFormed()
    requires (time.hoursInDay * time.minutesInHour) % time.secondsInMinute == 0
    requires time.SecondsPerDay() % 60 == 0
    ensures time.Decode(time.SecondsPerDay()) == Clock(0, 0, 0)
  {
    var spd := time.SecondsPerDay();
    DivUnique(spd, time.SecondsPerHour(), time.hoursInDay, 0);
    assert (spd / time.SecondsPerHour()) % time.hoursInDay == 0;
    DivUnique(spd, time.secondsInMinute, time.hoursInDay * time.minutesInHour, 0);
  }
}

=== FILE: date_selector.dfy ===
/** The date picker's selection state (src/classes/date-selector.ts): the
    registry of pickers by id, the picker's defaults, the two-click range
    selection, adding and removing a time, and the end-time clamp. */
module DateSelectors {
  import opened Wrappers

  /** A date held by the picker. The start and end may be one and the same
      object, in which case a write to either is seen through both. */
  class PickerDate {
    var year: int
    var month: int
    var day: int
    var allDay: bool
    var hour: int
    var minute: int

    constructor (year: int, month: int, day: int, allDay: bool, hour: int, minute: int)
      ensures this.year == year && this.month == month && this.day == day
      ensures this.allDay == allDay && this.hour == hour && this.minute == minute
    {
      this.year := year;
      this.month := month;
      this.day := day;
      this.allDay := allDay;
      this.hour := hour;
      this.minute := minute;
    }
  }

  /** A date given to the constructor. */
  datatype DateInput = DateInput(year: int, month: int, day: int, hour: int, minute: int)

  /** The constructor's options; `None` is an option left undefined. */
  datatype Options = Options(
    showDate: bool,
    showTime: bool,
    showYear: Option<bool>,
    placeHolderText: string,
    dateRangeSelect: Option<bool>,
    timeRangeSelect: Option<bool>,
    timeDelimiter: Option<string>,
    startDate: Option<DateInput>,
    endDate: Option<DateInput>,
    allDay: Option<bool>)

  /** A day clicked in the calendar: its year, month index and day, the day
      missing when the renderer gives none. */
  datatype ClickedDay = ClickedDay(year: int, month: int, day: Option<int>)

  /** The range the renderer reports on a click. */
  datatype SelectedRange = SelectedRange(start: ClickedDay, end: ClickedDay)

  /** `day || 1`: a missing or zero day is stored as 1. */
  function DayOrOne(day: Option<int>): (r: int)
    ensures r != 0
    ensures day.Some? && day.value != 0 ==> r == day.value
    ensures day.None? || day.value == 0 ==> r == 1
  {
    if day.Some? && day.value != 0 then day.value else 1
  }

  /** An hour and minute. */
  datatype HourMinute = HourMinute(hour: int, minute: int)

  /** The time selector's start and end. */
  datatype TimeRange = TimeRange(start: HourMinute, end: HourMinute)

  /** `a` is no later in the day than `b`. */
  predicate TimeLe(a: HourMinute, b: HourMinute) {
    a.hour < b.hour || (a.hour == b.hour && a.minute <= b.minute)
  }

  /** The end time timeChange stores for a start and end on the same day:
      an end hour not after the start hour is raised to it, and then an end
      minute before the start minute is raised to it. The end is never moved
      earlier, never ends before the start, and an end already no earlier
      than the start is kept. */
  function ClampEndTime(start: HourMinute, end: HourMinute): (r: HourMinute)
    ensures TimeLe(start, r)
    ensures TimeLe(start, end) ==> r == end
    ensures r.hour == (if end.hour < start.hour then start.hour else end.hour)
    ensures r.hour >= end.hour && r.minute >= end.minute
    ensures r.minute == end.minute || r.minute == start.minute
  {
    if end.hour <= start.hour then
      HourMinute(start.hour, if end.minute < start.minute then start.minute else end.minute)
    else end
  }

  /** The calendar day of a picker date, as the source's date comparison reads it. */
  datatype DayKey = DayKey(year: int, month: int, day: int)

  class DateSelector {
    var id: string
    var calendarId: string
    var timeSelectorId: string
    var showDate: bool
    var showTime: bool
    var showYear: bool
    var addTime: bool
    var placeHolderText: string
    var timeDelimiter: string
    var dateRange: bool
    var timeRange: bool
    var secondDaySelect: bool
    var visibleDate: PickerDate
    var startDate: PickerDate
    var endDate: PickerDate

    /** The picker's defaults and given options. Without a start date the
        start is year 0, month 1, day 1, all day; a given start or end is all
        day exactly when no time is shown; without an end date the end is the
        start itself. The visible date copies the start but with its all-day
        flag negated, unless an all-day option overrides all three. A time is
        being added exactly when the start is not all day. */
    constructor (id: string, options: Options)
      ensures this.id == id && calendarId == id + "_calendar" && timeSelectorId == id + "_time_selector"
      ensures showDate == options.showDate && showTime == options.showTime
      ensures showYear == options.showYear.GetOr(true)
      ensures placeHolderText == options.placeHolderText
      ensures dateRange == options.dateRangeSelect.GetOr(false)
      ensures timeRange == options.timeRangeSelect.GetOr(true)
      ensures timeDelimiter == options.timeDelimiter.GetOr("-")
      ensures !secondDaySelect
      ensures fresh(startDate) && fresh(endDate) && fresh(visibleDate)
      ensures visibleDate != startDate && visibleDate != endDate
      ensures options.endDate.None? <==> endDate == startDate
      ensures options.startDate.None? ==>
                startDate.year == 0 && startDate.month == 1 && startDate.day == 1
                && startDate.hour == 0 && startDate.minute == 0
      ensures options.startDate.Some? ==>
                var s := options.startDate.value;
                startDate.year == s.year && startDate.month == s.month && startDate.day == s.day
                && startDate.hour == s.hour && startDate.minute == s.minute
      ensures options.endDate.Some? ==>
                var e := options.endDate.value;
                endDate.year == e.year && endDate.month == e.month && endDate.day == e.day
                && endDate.hour == e.hour && endDate.minute == e.minute
                && endDate.allDay == options.allDay.GetOr(!showTime)
      ensures startDate.allDay == options.allDay.GetOr(options.startDate.None? || !showTime)
      ensures visibleDate.allDay == options.allDay.GetOr(!(options.startDate.None? || !showTime))
      ensures visibleDate.year == startDate.year && visibleDate.month == startDate.month
      ensures visibleDate.day == startDate.day && visibleDate.hour == startDate.hour
      ensures visibleDate.minute == startDate.minute
      ensures addTime == !startDate.allDay
    {
      this.id := id;
      calendarId := id + "_calendar";
      timeSelectorId := id + "_time_selector";
      showDate := options.showDate;
      showTime := options.showTime;
      showYear := options.showYear.GetOr(true);
      // A non-empty placeholder replaces the default empty one.
      placeHolderText := if options.placeHolderText != "" then options.placeHolderText else "";
      dateRange := options.dateRangeSelect.GetOr(false);
      timeRange := options.timeRangeSelect.GetOr(true);
      timeDelimiter := options.timeDelimiter.GetOr("-");
      secondDaySelect := false;
      var start, end, visible := InitialDates(options);
      startDate := start;
      endDate := end;
      visibleDate := visible;
      addTime := !start.allDay;
    }

    /** The constructor's three dates, before they are stored in the picker. */
    static method InitialDates(options: Options) returns (start: PickerDate, end: PickerDate, visible: PickerDate)
      ensures fresh(start) && fresh(end) && fresh(visible)
      ensures visible != start && visible != end
      ensures options.endDate.None? <==> end == start
      ensures options.startDate.None? ==>
                start.year == 0 && start.month == 1 && start.day == 1 && start.hour == 0 && start.minute == 0
      ensures options.startDate.Some? ==>
                var s := options.startDate.value;
                start.year == s.year && start.month == s.month && start.day == s.day
                && start.hour == s.hour && start.minute == s.minute
      ensures options.endDate.Some? ==>
                var e := options.endDate.value;
                end.year == e.year && end.month == e.month && end.day == e.day
                && end.hour == e.hour && end.minute == e.minute
                && end.allDay == options.allDay.GetOr(!options.showTime)
      ensures start.allDay == options.allDay.GetOr(options.startDate.None? || !options.showTime)
      ensures visible.allDay == options.allDay.GetOr(!(options.startDate.None? || !options.showTime))
      ensures visible.year == start.year && visible.month == start.month && visible.day == start.day
      ensures visible.hour == start.hour && visible.minute == start.minute
    {
      if options.startDate.Some? {
        var s := options.startDate.value;
        start := new PickerDate(s.year, s.month, s.day, !options.showTime, s.hour, s.minute);
      } else {
        start := new PickerDate(0, 1, 1, true, 0, 0);
      }
      visible := new PickerDate(start.year, start.month, start.day, !start.allDay, start.hour, start.minute);
      end := start;
      if options.endDate.Some? {
        var e := options.endDate.value;
        end := new PickerDate(e.year, e.month, e.day, !options.showTime, e.hour, e.minute);
      }
      if options.allDay.Some? {
        start.allDay := options.allDay.value;
        end.allDay := options.allDay.value;
        visible.allDay := options.allDay.value;
      }
    }

    /** hideCalendar: the range selection starts over. Hiding the calendar
        element and the selection callback are not part of this model. */
    method HideCalendar()
      modifies this`secondDaySelect
      ensures !secondDaySelect
    {
      secondDaySelect := false;
    }

    /** dayClick, given the renderer's selection (None when it reports none),
        the lookup from a month index to the month's numeric representation,
        and whether the picker's element is on the page. The first click of a
        range sets both start and end to the clicked day and waits for the
        second click unless ranges are off; the second click takes the start
        and end of the reported range. Whenever the calendar is hidden, the
        range selection starts over. Returns whether the calendar is hidden. */
    method DayClick(selection: Option<SelectedRange>, monthNumber: int -> int, rendered: bool) returns (hidden: bool)
      modifies this`secondDaySelect, startDate`year, startDate`month, startDate`day,
               endDate`year, endDate`month, endDate`day
      ensures selection.None? ==> !hidden && secondDaySelect == old(secondDaySelect)
      ensures selection.None? ==>
                startDate.year == old(startDate.year) && startDate.month == old(startDate.month)
                && startDate.day == old(startDate.day)
                && endDate.year == old(endDate.year) && endDate.month == old(endDate.month)
                && endDate.day == old(endDate.day)
      ensures selection.Some? && !old(secondDaySelect) ==>
                var s := selection.value.start;
                && hidden == !dateRange
                && secondDaySelect == !(hidden && rendered)
                && startDate.year == s.year && startDate.month == monthNumber(s.month) && startDate.day == DayOrOne(s.day)
                && endDate.year == s.year && endDate.month == monthNumber(s.month) && endDate.day == DayOrOne(s.day)
      ensures selection.Some? && old(secondDaySelect) ==>
                var s := selection.value.start;
                var e := selection.value.end;
                && hidden
                && secondDaySelect == !rendered
                && endDate.year == e.year && endDate.month == monthNumber(e.month) && endDate.day == DayOrOne(e.day)
                && (startDate != endDate ==>
                      startDate.year == s.year && startDate.month == monthNumber(s.month) && startDate.day == DayOrOne(s.day))
    {
      hidden := false;
      if selection.Some? {
        var s := selection.value.start;
        var e := selection.value.end;
        var hideCalendar := true;
        if !secondDaySelect {
          startDate.year := s.year;
          startDate.month := monthNumber(s.month);
          startDate.day := DayOrOne(s.day);
          endDate.year := s.year;
          endDate.month := monthNumber(s.month);
          endDate.day := DayOrOne(s.day);
          secondDaySelect := true;
          hideCalendar := !dateRange;
        } else {
          startDate.year := s.year;
          startDate.month := monthNumber(s.month);
          startDate.day := DayOrOne(s.day);
          endDate.year := e.year;
          endDate.month := monthNumber(e.month);
          endDate.day := DayOrOne(e.day);
        }
        hidden := hideCalendar;
        if hideCalendar && rendered {
          HideCalendar();
        }
      }
    }

    /** addTimeClick: both dates get a time, starting at 00:00. */
    method AddTimeClick()
      modifies this`addTime, startDate`allDay, startDate`hour, startDate`minute,
               endDate`allDay, endDate`hour, endDate`minute
      ensures addTime
      ensures !startDate.allDay && startDate.hour == 0 && startDate.minute == 0
      ensures !endDate.allDay && endDate.hour == 0 && endDate.minute == 0
    {
      addTime := true;
      startDate.allDay := false;
      startDate.hour := 0;
      startDate.minute := 0;
      endDate.allDay := false;
      endDate.hour := 0;
      endDate.minute := 0;
    }

    /** removeTimeClick: both dates become all day, their time reset to 00:00. */
    method RemoveTimeClick()
      modifies this`addTime, startDate`allDay, startDate`hour, startDate`minute,
               endDate`allDay, endDate`hour, endDate`minute
      ensures !addTime
      ensures startDate.allDay && startDate.hour == 0 && startDate.minute == 0
      ensures endDate.allDay && endDate.hour == 0 && endDate.minute == 0
    {
      addTime := false;
      startDate.allDay := true;
      startDate.hour := 0;
      startDate.minute := 0;
      endDate.allDay := true;
      endDate.hour := 0;
      endDate.minute := 0;
    }

    /** timeChange, given the time selector's range (None when it reports
        none) and the date comparison the source calls: on a single day the
        end time is clamped so it does not precede the start; the end time is
        then stored, and the start time too unless start and end are one object. */
    method TimeChange(selection: Option<TimeRange>, sameDay: (DayKey, DayKey) -> bool)
      modifies startDate`hour, startDate`minute, endDate`hour, endDate`minute
      ensures selection.None? ==>
                startDate.hour == old(startDate.hour) && startDate.minute == old(startDate.minute)
                && endDate.hour == old(endDate.hour) && endDate.minute == old(endDate.minute)
      ensures selection.Some? ==>
                var t := selection.value;
                var same := sameDay(DayKey(old(startDate.year), old(startDate.month), old(startDate.day)),
                                    DayKey(old(endDate.year), old(endDate.month), old(endDate.day)));
                var end := if same then ClampEndTime(t.start, t.end) else t.end;
                && endDate.hour == end.hour && endDate.minute == end.minute
                && (startDate != endDate ==> startDate.hour == t.start.hour && startDate.minute == t.start.minute)
    {
      if selection.Some? {
        var t := selection.value;
        var end := t.end;
        if sameDay(DayKey(startDate.year, startDate.month, startDate.day), DayKey(endDate.year, endDate.month, endDate.day)) {
          if end.hour <= t.start.hour {
            end := end.(hour := t.start.hour);
            if end.minute < t.start.minute {
              end := end.(minute := t.start.minute);
            }
          }
        }
        startDate.hour := t.start.hour;
        startDate.minute := t.start.minute;
        endDate.hour := end.hour;
        endDate.minute := end.minute;
      }
    }
  }

  /** The page's pickers by id (the class's static Selectors list). */
  class SelectorRegistry {
    var selectors: map<string, DateSelector>

    constructor ()
      ensures selectors == map[]
    {
      selectors := map[];
    }

    /** GetSelector: the picker registered under `id`, or a new one made from
        the options and registered under it. */
    method GetSelector(id: string, options: Options) returns (ds: DateSelector)
      modifies this`selectors
      ensures id in selectors && selectors[id] == ds
      ensures id in old(selectors) ==> ds == old(selectors)[id] && selectors == old(selectors)
      ensures id !in old(selectors) ==> fresh(ds) && ds.id == id && selectors == old(selectors)[id := ds]
    {
      if id in selectors {
        ds := selectors[id];
      } else {
        ds := new DateSelector(id, options);
        selectors := selectors[id := ds];
      }
    }

    /** RemoveSelector: drops the picker registered under `id`, if any, and
        keeps every other one. */
    method RemoveSelector(id: string)
      modifies this`selectors
      ensures id !in selectors
      ensures selectors.Keys == old(selectors).Keys - {id}
      ensures forall k :: k in selectors ==> selectors[k] == old(selectors)[k]
    {
      if id in selectors {
        selectors := selectors - {id};
      }
    }
  }
}

=== FILE: note_sheet.dfy ===
/** The note editor's state rules (src/classes/notes/note-sheet.ts): the
    dates taken from the date picker, the repeat options a note's span
    allows, the rebuild of the journal entry's permission map from the
    selected users, and the toggle of the current user in the reminder list. */
module NoteSheets {
  import opened Wrappers

  /** A note's start or end date: 0-based month and day. */
  datatype NoteDate = NoteDate(year: int, month: int, day: int, hour: int, minute: int, seconds: int)

  /** A date as the date picker reports it; any part may be missing. */
  datatype PickedDate = PickedDate(
    year: Option<int>, month: Option<int>, day: Option<int>,
    hour: Option<int>, minute: Option<int>, seconds: Option<int>)

  /** The date picker's selection: both ends and whether a time was chosen. */
  datatype SelectedDates = SelectedDates(startDate: PickedDate, endDate: PickedDate, timeSelected: bool)

  /** `!v || v < 0 ? 0 : v`: a missing, zero or negative index becomes 0. */
  function IndexOrZero(v: Option<int>): (r: int)
    ensures r >= 0
    ensures v.Some? && v.value >= 0 ==> r == v.value
    ensures v.None? || v.value < 0 ==> r == 0
  {
    if v.None? || v.value == 0 || v.value < 0 then 0 else v.value
  }

  /** The date stored for a picked date: month and day are clamped to valid
      indices, and every other missing part becomes 0 (`v || 0`). */
  function NormalizeDate(p: PickedDate): (r: NoteDate)
    ensures r.month >= 0 && r.day >= 0
    ensures r.month == IndexOrZero(p.month) && r.day == IndexOrZero(p.day)
    ensures r.year == p.year.GetOr(0) && r.hour == p.hour.GetOr(0)
    ensures r.minute == p.minute.GetOr(0) && r.seconds == p.seconds.GetOr(0)
  {
    NoteDate(p.year.GetOr(0), IndexOrZero(p.month), IndexOrZero(p.day),
             p.hour.GetOr(0), p.minute.GetOr(0), p.seconds.GetOr(0))
  }

  /** A stored date read back as a picked one. */
  function AsPicked(d: NoteDate): (picked: PickedDate) {
    PickedDate(Some(d.year), Some(d.month), Some(d.day), Some(d.hour), Some(d.minute), Some(d.seconds))
  }

  /** Normalising a date that is already normalised changes nothing. */
  lemma NormalizeIdempotent(p: PickedDate)
    ensures NormalizeDate(AsPicked(NormalizeDate(p))) == NormalizeDate(p)
  {
    var d := NormalizeDate(p);
    assert IndexOrZero(Some(d.month)) == d.month;
    assert IndexOrZero(Some(d.day)) == d.day;
  }

  //---------------------------------------------------------------------------
  // Repeat options
  //---------------------------------------------------------------------------

  const Never := "FSC.Notes.Repeat.Never"
  const Weekly := "FSC.Notes.Repeat.Weekly"
  const Monthly := "FSC.Notes.Repeat.Monthly"
  const Yearly := "FSC.Notes.Repeat.Yearly"

  /** The repeat options a note can keep: a note cannot repeat more often
      than it lasts, so a span of a year or more leaves only "never", a span
      of the start month's length or more rules out weekly and monthly, and a
      span of a week or more rules out weekly. */
  function RepeatKept(daysBetween: int, yearDays: int, startMonthDays: int, weekLength: int): (kept: set<string>)
  {
    {"0"}
    + (if daysBetween < yearDays then {"3"} else {})
    + (if daysBetween < yearDays && daysBetween < startMonthDays then {"2"} else {})
    + (if daysBetween < yearDays && daysBetween < startMonthDays && daysBetween < weekLength then {"1"} else {})
  }

  /** A longer span never allows an option a shorter one rules out. */
  lemma RepeatKeptMonotone(d1: int, d2: int, yearDays: int, startMonthDays: int, weekLength: int)
    requires d1 <= d2
    ensures RepeatKept(d2, yearDays, startMonthDays, weekLength) <= RepeatKept(d1, yearDays, startMonthDays, weekLength)
  {
  }

  //---------------------------------------------------------------------------
  // Reminder list
  //---------------------------------------------------------------------------

  /** Array.prototype.indexOf: the first index of `x` in `s`, or -1. */
  function IndexOf(s: seq<string>, x: string): (i: int)
    ensures -1 <= i < |s|
    ensures i == -1 <==> x !in s
    ensures i >= 0 ==> s[i] == x && x !in s[..i]
  {
    if s == [] then -1
    else if s[0] == x then 0
    else
      var j := IndexOf(s[1..], x);
      if j == -1 then -1
      else
        assert s[..j + 1] == [s[0]] + s[1..][..j];
        j + 1
  }

  predicate NoDuplicates(s: seq<string>) {
    forall i, j :: 0 <= i < j < |s| ==> s[i] != s[j]
  }

  /** The reminder list after the user `userId` toggles their reminder:
      appended when absent, its first occurrence removed when present, and
      unchanged for an empty id. */
  function Toggled(users: seq<string>, userId: string): (toggled: seq<string>)
  {
    var i := IndexOf(users, userId);
    if userId != "" && i == -1 then users + [userId]
    else if userId != "" && i != -1 then users[..i] + users[i + 1..]
    else users
  }

  /** On a list without duplicates the toggle flips the user's membership,
      keeps every other user, keeps the list free of duplicates, and undoes
      itself when the user was absent. */
  lemma {:induction false} ToggleFlipsMembership(users: seq<string>, userId: string)
    requires NoDuplicates(users) && userId != ""
    ensures userId in Toggled(users, userId) <==> userId !in users
    ensures forall x :: x != userId ==> (x in Toggled(users, userId) <==> x in users)
    ensures NoDuplicates(Toggled(users, userId))
    ensures userId !in users ==> Toggled(Toggled(users, userId), userId) == users
  {
    if userId in users {
      ToggleRemoves(users, userId);
    } else {
      ToggleAppends(users, userId);
    }
  }

  /** Toggling an absent user appends it, and toggling again takes it off. */
  lemma ToggleAppends(users: seq<string>, userId: string)
    requires NoDuplicates(users) && userId != "" && userId !in users
    ensures Toggled(users, userId) == users + [userId]
    ensures NoDuplicates(Toggled(users, userId))
    ensures Toggled(Toggled(users, userId), userId) == users
  {
    var t := users + [userId];
    assert t[|users|] == userId;
    assert t[..|users|] == users;
  }

  /** Removing index `i` shifts every later element down by one. */
  lemma RemoveAt(users: seq<string>, i: int, t: seq<string>)
    requires 0 <= i < |users| && t == users[..i] + users[i + 1..]
    ensures |t| == |users| - 1
    ensures forall k :: 0 <= k < |t| ==> t[k] == users[if k < i then k else k + 1]
  {
  }

  /** Removing index `i` keeps every value other than the one removed. */
  lemma RemoveAtKeepsOthers(users: seq<string>, i: int, t: seq<string>)
    requires 0 <= i < |users| && t == users[..i] + users[i + 1..]
    ensures forall x :: x != users[i] ==> (x in t <==> x in users)
  {
    RemoveAt(users, i, t);
    forall x | x != users[i] && x in users
      ensures x in t
    {
      var k :| 0 <= k < |users| && users[k] == x;
      if k < i {
        assert t[k] == x;
      } else {
        assert t[k - 1] == x;
      }
    }
    forall x | x in t
      ensures x in users
    {
      var k :| 0 <= k < |t| && t[k] == x;
      assert users[if k < i then k else k + 1] == x;
    }
  }

  /** Removing index `i` from a list without duplicates removes its value
      altogether and leaves a list without duplicates. */
  lemma RemoveAtNoDuplicates(users: seq<string>, i: int, t: seq<string>)
    requires NoDuplicates(users)
    requires 0 <= i < |users| && t == users[..i] + users[i + 1..]
    ensures users[i] !in t
    ensures NoDuplicates(t)
  {
    RemoveAt(users, i, t);
    forall a, b | 0 <= a < b < |t|
      ensures t[a] != t[b]
    {
      assert t[a] == users[if a < i then a else a + 1];
    }
    forall k | 0 <= k < |t|
      ensures t[k] != users[i]
    {
      assert t[k] == users[if k < i then k else k + 1];
    }
  }

  /** Toggling a present user of a list without duplicates drops it and
      keeps every other user. */
  lemma ToggleRemoves(users: seq<string>, userId: string)
    requires NoDuplicates(users) && userId != "" && userId in users
    ensures userId !in Toggled(users, userId)
    ensures forall x :: x != userId ==> (x in Toggled(users, userId) <==> x in users)
    ensures NoDuplicates(Toggled(users, userId))
  {
    var i := IndexOf(users, userId);
    var t := users[..i] + users[i + 1..];
    assert Toggled(users, userId) == t;
    RemoveAtKeepsOthers(users, i, t);
    RemoveAtNoDuplicates(users, i, t);
  }

  //---------------------------------------------------------------------------
  // The note sheet
  //---------------------------------------------------------------------------

  /** The permission map `after` is the rebuild of `before` for the selected
      users: owner entries (3) are kept, every selected user can at least
      view (2), every other entry is reset to none (0), and the only new
      keys are selected users. */
  ghost predicate RebuiltFrom(before: map<string, int>, users: seq<string>, after: map<string, int>) {
    && after.Keys == before.Keys + (set u | u in users)
    && (forall u :: u in users ==> after[u] == (if u in before && before[u] == 3 then 3 else 2))
    && (forall k :: k in before && k !in users ==> after[k] == (if before[k] == 3 then 3 else 0))
  }

  /** Rebuilding a rebuilt map for the same users changes nothing. */
  lemma RebuildIdempotent(p: map<string, int>, users: seq<string>, q: map<string, int>, q2: map<string, int>)
    requires RebuiltFrom(p, users, q) && RebuiltFrom(q, users, q2)
    ensures q2 == q
  {
    forall k | k in q
      ensures q2[k] == q[k]
    {
      if k !in users {
        assert k in p;
      }
    }
  }

  class NoteSheet {
    /** The journal entry's permission per user id: 0 none, 2 observer, 3 owner. */
    var permission: map<string, int>
    /** The ids of the users to remind of the note. */
    var remindUsers: seq<string>
    var allDay: bool
    var startDate: NoteDate
    var endDate: NoteDate

    constructor (permission: map<string, int>, remindUsers: seq<string>, allDay: bool, startDate: NoteDate, endDate: NoteDate)
      ensures this.permission == permission && this.remindUsers == remindUsers
      ensures this.allDay == allDay && this.startDate == startDate && this.endDate == endDate
    {
      this.permission := permission;
      this.remindUsers := remindUsers;
      this.allDay := allDay;
      this.startDate := startDate;
      this.endDate := endDate;
    }

    /** dateSelectorSelect: when the note's calendar exists, stores the
        picked dates normalised and makes the note all-day exactly when no
        time was selected; otherwise nothing changes. */
    method DateSelectorSelect(selected: SelectedDates, calendarFound: bool)
      modifies this`allDay, this`startDate, this`endDate
      ensures calendarFound ==>
                && allDay == !selected.timeSelected
                && startDate == NormalizeDate(selected.startDate)
                && endDate == NormalizeDate(selected.endDate)
      ensures !calendarFound ==> allDay == old(allDay) && startDate == old(startDate) && endDate == old(endDate)
    {
      if calendarFound {
        var sMonthIndex := IndexOrZero(selected.startDate.month);
        var sDayIndex := IndexOrZero(selected.startDate.day);
        var eMonthIndex := IndexOrZero(selected.endDate.month);
        var eDayIndex := IndexOrZero(selected.endDate.day);
        allDay := !selected.timeSelected;
        var s := selected.startDate;
        var e := selected.endDate;
        startDate := NoteDate(s.year.GetOr(0), sMonthIndex, sDayIndex, s.hour.GetOr(0), s.minute.GetOr(0), s.seconds.GetOr(0));
        endDate := NoteDate(e.year.GetOr(0), eMonthIndex, eDayIndex, e.hour.GetOr(0), e.minute.GetOr(0), e.seconds.GetOr(0));
      }
    }

    /** The options of updateNoteRepeatDropdown, keyed "0" to "3", for a
        note spanning `daysBetween` days in a calendar whose year has
        `yearDays` days, whose start month has `startMonthDays` days and
        whose week has `weekLength` days. "Never" is always offered. */
    method RepeatOptions(daysBetween: int, yearDays: int, startMonthDays: int, weekLength: int)
      returns (options: map<string, string>)
      ensures options.Keys == RepeatKept(daysBetween, yearDays, startMonthDays, weekLength)
      ensures "0" in options && options.Keys <= {"0", "1", "2", "3"}
      ensures "3" in options <==> daysBetween < yearDays
      ensures "2" in options <==> daysBetween < yearDays && daysBetween < startMonthDays
      ensures "1" in options <==> daysBetween < yearDays && daysBetween < startMonthDays && daysBetween < weekLength
      ensures forall k :: k in options ==>
                options[k] == (if k == "0" then Never else if k == "1" then Weekly else if k == "2" then Monthly else Yearly)
    {
      options := map["0" := Never, "1" := Weekly, "2" := Monthly, "3" := Yearly];
      if daysBetween >= yearDays {
        options := options - {"1"};
        options := options - {"2"};
        options := options - {"3"};
      } else if daysBetween >= startMonthDays {
        options := options - {"1"};
        options := options - {"2"};
      } else if daysBetween >= weekLength {
        options := options - {"1"};
      }
    }

    /** The permission rebuild of writeInputValuesToObjects: every entry that
        is not an owner's is reset to none, then every selected user without
        at least observer rights is made an observer. */
    method RebuildPermissions(usersWithView: seq<string>)
      modifies this`permission
      ensures RebuiltFrom(old(permission), usersWithView, permission)
    {
      ResetNonOwners();
      GrantView(usersWithView);
    }

    /** The first loop of the rebuild: entries other than owners' become 0. */
    method ResetNonOwners()
      modifies this`permission
      ensures permission.Keys == old(permission).Keys
      ensures forall k :: k in permission ==> permission[k] == (if old(permission)[k] == 3 then 3 else 0)
    {
      ghost var before := permission;
      var todo := permission.Keys;
      while todo != {}
        invariant todo <= permission.Keys && permission.Keys == before.Keys
        invariant forall k :: k in permission && k !in todo ==> permission[k] == (if before[k] == 3 then 3 else 0)
        invariant forall k :: k in todo ==> permission[k] == before[k]
        decreases |todo|
      {
        var k :| k in todo;
        if permission[k] != 3 {
          permission := permission[k := 0];
        }
        todo := todo - {k};
      }
    }

    /** The second loop of the rebuild, over a map whose entries are 0 or 3:
        each selected user below observer becomes an observer. */
    method GrantView(usersWithView: seq<string>)
      modifies this`permission
      requires forall k :: k in permission ==> permission[k] == 0 || permission[k] == 3
      ensures permission.Keys == old(permission).Keys + (set u | u in usersWithView)
      ensures forall u :: u in usersWithView ==>
                permission[u] == (if u in old(permission) && old(permission)[u] == 3 then 3 else 2)
      ensures forall k :: k in old(permission) && k !in usersWithView ==> permission[k] == old(permission)[k]
    {
      ghost var before := permission;
      var i := 0;
      while i < |usersWithView|
        invariant 0 <= i <= |usersWithView|
        invariant permission.Keys == before.Keys + (set u | u in usersWithView[..i])
        invariant forall u :: u in usersWithView[..i] ==>
                    permission[u] == (if u in before && before[u] == 3 then 3 else 2)
        invariant forall k :: k in before && k !in usersWithView[..i] ==> permission[k] == before[k]
      {
        var u := usersWithView[i];
        assert usersWithView[..i + 1] == usersWithView[..i] + [u];
        if u !in permission || permission[u] < 2 {
          permission := permission[u := 2];
        } else if permission[u] == 3 {
          permission := permission[u := 3];
        }
        i := i + 1;
      }
      assert usersWithView[..i] == usersWithView;
    }

    /** reminderChange for a user who may edit the note: toggles the user in
        the reminder list. A user who may not edit sends the change to the
        game master instead, and the list here is left as it is. */
    method ReminderChange(userId: string, canEdit: bool)
      modifies this`remindUsers
      ensures canEdit ==> remindUsers == Toggled(old(remindUsers), userId)
      ensures !canEdit ==> remindUsers == old(remindUsers)
    {
      if canEdit {
        var userIndex := IndexOf(remindUsers, userId);
        if userId != "" && userIndex == -1 {
          remindUsers := remindUsers + [userId];
        } else if userId != "" && userIndex != -1 {
          remindUsers := remindUsers[..userIndex] + remindUsers[userIndex + 1..];
        }
      }
    }
  }
}

=== FILE: seasons.dfy ===
/** Seasons and the order the calendar sorts them in before resolving the
    season of a date (src/classes/calendar/index.ts:377-457). */
module Seasons {
  import opened Wrappers

  /** A season: its name and colour, its first month and day (both 0-based),
      and the sunrise and sunset time of day (in seconds) on that first day. */
  datatype Season = Season(
    name: string,
    color: string,
    startingMonth: int,
    startingDay: int,
    sunriseTime: int,
    sunsetTime: int)

  /** The comparator `a.startingMonth - b.startingMonth || a.startingDay - b.startingDay`
      is not positive: `a` starts no later than `b` in the year. */
  predicate StartsNoLater(a: Season, b: Season) {
    a.startingMonth < b.startingMonth
    || (a.startingMonth == b.startingMonth && a.startingDay <= b.startingDay)
  }

  predicate Sorted(s: seq<Season>) {
    forall i, j :: 0 <= i < j < |s| ==> StartsNoLater(s[i], s[j])
  }

  /** Inserts `x` into sorted `s` after every season that starts no later than `x`. */
  function Insert(s: seq<Season>, x: Season): (r: seq<Season>)
    requires Sorted(s)
    ensures Sorted(r)
    ensures multiset(r) == multiset(s) + multiset{x}
  {
    if s == [] then [x]
    else if StartsNoLater(s[|s| - 1], x) then s + [x]
    else
      var init, last := s[..|s| - 1], s[|s| - 1];
      var front := Insert(init, x);
      assert s == init + [last];
      NoLaterThanAll(front, init, x, last);
      front + [last]
  }

  /** A list holding the seasons of `init` and `x` starts no later than
      `last` throughout when `init` and `x` do. */
  lemma NoLaterThanAll(front: seq<Season>, init: seq<Season>, x: Season, last: Season)
    requires multiset(front) == multiset(init) + multiset{x}
    requires !StartsNoLater(last, x)
    requires forall k :: 0 <= k < |init| ==> StartsNoLater(init[k], last)
    ensures forall i :: 0 <= i < |front| ==> StartsNoLater(front[i], last)
  {
    forall i | 0 <= i < |front|
      ensures StartsNoLater(front[i], last)
    {
      assert front[i] in multiset(front);
      if front[i] != x {
        assert front[i] in multiset(init);
        var k :| 0 <= k < |init| && init[k] == front[i];
      }
    }
  }

  /** The seasons sorted by (startingMonth, startingDay), keeping seasons that
      start on the same day in their original order, as the stable
      Array.prototype.sort does. */
  function SortSeasons(s: seq<Season>): (r: seq<Season>)
  {
    if s == [] then [] else Insert(SortSeasons(s[..|s| - 1]), s[|s| - 1])
  }

  /** The sorted list is sorted and holds the same seasons. */
  lemma {:induction false} SortSeasonsCorrect(s: seq<Season>)
    ensures Sorted(SortSeasons(s))
    ensures multiset(SortSeasons(s)) == multiset(s)
    ensures |SortSeasons(s)| == |s|
  {
    if s != [] {
      SortSeasonsCorrect(s[..|s| - 1]);
      assert s == s[..|s| - 1] + [s[|s| - 1]];
      var r := SortSeasons(s);
      assert |multiset(r)| == |multiset(s)|;
    }
  }

  /** Sorting an already sorted list leaves it as it is, so resolving the
      season again does not reorder the seasons. */
  lemma {:induction false} SortSeasonsOfSorted(s: seq<Season>)
    requires Sorted(s)
    ensures SortSeasons(s) == s
  {
    if s != [] {
      var init, last := s[..|s| - 1], s[|s| - 1];
      assert Sorted(init);
      SortSeasonsOfSorted(init);
      assert s == init + [last];
      if init != [] {
        assert StartsNoLater(s[|init| - 1], last);
      }
      assert Insert(init, last) == init + [last];
    }
  }

  /** The seasons of `s` that start on day `day` of month `month`, in the
      order they appear in `s`. */
  function StartingOn(s: seq<Season>, month: int, day: int): (r: seq<Season>)
    ensures |r| <= |s|
    ensures forall k :: 0 <= k < |r| ==> r[k].startingMonth == month && r[k].startingDay == day
  {
    if s == [] then []
    else
      var last := s[|s| - 1];
      StartingOn(s[..|s| - 1], month, day)
      + (if last.startingMonth == month && last.startingDay == day then [last] else [])
  }

  lemma {:induction false} StartingOnAppend(a: seq<Season>, b: seq<Season>, month: int, day: int)
    ensures StartingOn(a + b, month, day) == StartingOn(a, month, day) + StartingOn(b, month, day)
  {
    if b != [] {
      var init := b[..|b| - 1];
      assert (a + b)[..|a + b| - 1] == a + init;
      StartingOnAppend(a, init, month, day);
    } else {
      assert a + b == a;
    }
  }

  lemma StartingOnSingle(x: Season, month: int, day: int)
    ensures StartingOn([x], month, day) == (if x.startingMonth == month && x.startingDay == day then [x] else [])
  {
    assert [x][..0] == [];
  }

  /** Inserting a season adds it after the seasons of `s` that start on the same day. */
  lemma {:induction false} InsertStartingOn(s: seq<Season>, x: Season, month: int, day: int)
    requires Sorted(s)
    ensures StartingOn(Insert(s, x), month, day) == StartingOn(s, month, day) + StartingOn([x], month, day)
  {
    if s == [] {
      assert Insert(s, x) == [x];
    } else if StartsNoLater(s[|s| - 1], x) {
      assert Insert(s, x) == s + [x];
      StartingOnAppend(s, [x], month, day);
    } else {
      var init, last := s[..|s| - 1], s[|s| - 1];
      var front := Insert(init, x);
      assert Insert(s, x) == front + [last];
      assert s == init + [last];
      InsertStartingOn(init, x, month, day);
      StartingOnAppend(front, [last], month, day);
      StartingOnAppend(init, [last], month, day);
      StartingOnReorder(StartingOn(init, month, day), x, last, month, day);
    }
  }

  /** A season starting strictly after `x` cannot start on the same day, so
      the seasons of the two that start on a given day may be added to a
      list in either order. */
  lemma StartingOnReorder(before: seq<Season>, x: Season, last: Season, month: int, day: int)
    requires !StartsNoLater(last, x)
    ensures (before + StartingOn([x], month, day)) + StartingOn([last], month, day)
            == (before + StartingOn([last], month, day)) + StartingOn([x], month, day)
  {
    StartingOnSingle(x, month, day);
    StartingOnSingle(last, month, day);
    if x.startingMonth == month && x.startingDay == day {
      assert StartingOn([last], month, day) == [];
    } else {
      assert StartingOn([x], month, day) == [];
    }
  }

  /** The sort is stable: the seasons that start on any one day keep the
      order they had before sorting. */
  lemma {:induction false} SortSeasonsStable(s: seq<Season>, month: int, day: int)
    ensures StartingOn(SortSeasons(s), month, day) == StartingOn(s, month, day)
  {
    if s != [] {
      var init, last := s[..|s| - 1], s[|s| - 1];
      var sortedInit := SortSeasons(init);
      assert SortSeasons(s) == Insert(sortedInit, last);
      SortSeasonsCorrect(init);
      SortSeasonsStable(init, month, day);
      InsertStartingOn(sortedInit, last, month, day);
      StartingOnSingle(last, month, day);
    }
  }

  /** A season starting at or before (monthIndex, dayIndex) in the year. */
  predicate StartsBy(x: Season, monthIndex: int, dayIndex: int) {
    (x.startingMonth == monthIndex && x.startingDay <= dayIndex) || x.startingMonth < monthIndex
  }

  /** The index of the last season in `s` that starts at or before
      (monthIndex, dayIndex), or -1 when there is none. */
  function LastStartingBy(s: seq<Season>, monthIndex: int, dayIndex: int): (k: int)
    ensures -1 <= k < |s|
    ensures k >= 0 ==> StartsBy(s[k], monthIndex, dayIndex)
    ensures forall j :: k < j < |s| ==> !StartsBy(s[j], monthIndex, dayIndex)
  {
    if s == [] then -1
    else if StartsBy(s[|s| - 1], monthIndex, dayIndex) then |s| - 1
    else LastStartingBy(s[..|s| - 1], monthIndex, dayIndex)
  }

  /** In sorted order the seasons that start by a date form a prefix: the
      season found is the latest one to start by the date, every season
      before it starts by the date as well and none after it does. */
  lemma ActiveSeasonIsPrefixEnd(s: seq<Season>, monthIndex: int, dayIndex: int)
    requires Sorted(s)
    ensures forall j :: 0 <= j < |s| ==>
              (StartsBy(s[j], monthIndex, dayIndex) <==> j <= LastStartingBy(s, monthIndex, dayIndex))
  {
    var k := LastStartingBy(s, monthIndex, dayIndex);
    forall j | 0 <= j <= k
      ensures StartsBy(s[j], monthIndex, dayIndex)
    {
      assert StartsNoLater(s[j], s[k]);
    }
  }

  /** The loop of getSeason and getSunriseSunsetTime: walks the seasons in
      order and remembers the last one that starts at or before the date;
      -1 when none does. */
  method ScanSeasons(s: seq<Season>, monthIndex: int, dayIndex: int) returns (found: int)
    ensures found == LastStartingBy(s, monthIndex, dayIndex)
  {
    found := -1;
    var i := 0;
    while i < |s|
      invariant 0 <= i <= |s|
      invariant found == LastStartingBy(s[..i], monthIndex, dayIndex)
    {
      assert s[..i + 1][..i] == s[..i];
      if s[i].startingMonth == monthIndex && s[i].startingDay <= dayIndex {
        found := i;
      } else if s[i].startingMonth < monthIndex {
        found := i;
      }
      i := i + 1;
    }
    assert s[..|s|] == s;
  }

  /** The season getSeason answers for sorted seasons `s`: the last one that
      starts by the date, or the last of the year (carried over from the year
      before) when none does; None when there are no seasons. */
  function ActiveSeason(s: seq<Season>, monthIndex: int, dayIndex: int): (active: Option<Season>)
  {
    if s == [] then None
    else
      var k := LastStartingBy(s, monthIndex, dayIndex);
      Some(s[if k == -1 then |s| - 1 else k])
  }

  /** Over sorted seasons the active season is one of them, starts by the
      date whenever some season does and no season that starts by the date
      starts later than it; when none starts by the date it is the season
      that starts latest in the year. */
  lemma ActiveSeasonIsLatestStarted(s: seq<Season>, monthIndex: int, dayIndex: int)
    requires Sorted(s)
    ensures ActiveSeason(s, monthIndex, dayIndex).Some? <==> |s| > 0
    ensures ActiveSeason(s, monthIndex, dayIndex).Some? ==> ActiveSeason(s, monthIndex, dayIndex).value in s
    ensures (exists i :: 0 <= i < |s| && StartsBy(s[i], monthIndex, dayIndex)) ==>
              var a := ActiveSeason(s, monthIndex, dayIndex).value;
              && StartsBy(a, monthIndex, dayIndex)
              && forall i :: 0 <= i < |s| && StartsBy(s[i], monthIndex, dayIndex) ==> StartsNoLater(s[i], a)
    ensures |s| > 0 && (forall i :: 0 <= i < |s| ==> !StartsBy(s[i], monthIndex, dayIndex)) ==>
              forall i :: 0 <= i < |s| ==> StartsNoLater(s[i], ActiveSeason(s, monthIndex, dayIndex).value)
  {
    if s != [] {
      var k := LastStartingBy(s, monthIndex, dayIndex);
      ActiveSeasonIsPrefixEnd(s, monthIndex, dayIndex);
      var a := if k == -1 then |s| - 1 else k;
      forall i | 0 <= i < |s| && i <= a
        ensures StartsNoLater(s[i], s[a])
      {
        if i < a {
          assert StartsNoLater(s[i], s[a]);
        }
      }
    }
  }

  /** The season the sunrise/sunset interpolation runs between, with the
      years of its first day and of the next season's first day. */
  datatype SeasonWindow = SeasonWindow(index: int, next: int, seasonYear: int, nextSeasonYear: int)

  /** The choice made by getSunriseSunsetTime over sorted seasons `s`: the
      active season defaults to the last one, the next one follows it
      cyclically, and a last season that the date precedes began the year before. */
  function Window(s: seq<Season>, year: int, monthIndex: int, dayIndex: int): (w: SeasonWindow)
    requires |s| > 0
    ensures 0 <= w.index < |s| && 0 <= w.next < |s|
    ensures w.next == (w.index + 1) % |s|
  {
    var found := LastStartingBy(s, monthIndex, dayIndex);
    var index := if found == -1 then |s| - 1 else found;
    var last := s[|s| - 1];
    var seasonYear :=
      if index == |s| - 1
         && (monthIndex < last.startingMonth || (last.startingMonth == monthIndex && dayIndex < last.startingDay))
      then year - 1 else year;
    var nextSeasonYear := if index == |s| - 1 then seasonYear + 1 else seasonYear;
    SeasonWindow(index, (index + 1) % |s|, seasonYear, nextSeasonYear)
  }

  /** The steps of getSunriseSunsetTime after the seasons are sorted: the scan
      for the active season, its default and the years of the window; None
      when there are no seasons. */
  method PickWindow(s: seq<Season>, y: int, monthIndex: int, dayIndex: int) returns (w: Option<SeasonWindow>)
    ensures |s| == 0 ==> w == None
    ensures |s| > 0 ==> w == Some(Window(s, y, monthIndex, dayIndex))
  {
    var found := ScanSeasons(s, monthIndex, dayIndex);
    var seasonIndex := found;
    if seasonIndex == -1 {
      seasonIndex := |s| - 1;
    }
    if |s| == 0 {
      // (seasonIndex + 1) % 0 is NaN in the source and fails its bounds test.
      return None;
    }
    var nextSeasonIndex := (seasonIndex + 1) % |s|;
    var seasonYear := y;
    var nextSeasonYear := seasonYear;
    if seasonIndex == |s| - 1 {
      var last := s[seasonIndex];
      if monthIndex < last.startingMonth || (last.startingMonth == monthIndex && dayIndex < last.startingDay) {
        seasonYear := y - 1;
      }
      nextSeasonYear := seasonYear + 1;
    }
    w := Some(SeasonWindow(seasonIndex, nextSeasonIndex, seasonYear, nextSeasonYear));
  }

  /** (y1, m1, d1) is no later than (y2, m2, d2). */
  predicate DateNoLater(y1: int, m1: int, d1: int, y2: int, m2: int, d2: int) {
    y1 < y2 || (y1 == y2 && (m1 < m2 || (m1 == m2 && d1 <= d2)))
  }

  /** The date lies in the window: the active season began on or before it
      and the next season begins after it, both in the years chosen. */
  lemma WindowBracketsDate(s: seq<Season>, year: int, monthIndex: int, dayIndex: int)
    requires |s| > 0
    ensures var w := Window(s, year, monthIndex, dayIndex);
            && DateNoLater(w.seasonYear, s[w.index].startingMonth, s[w.index].startingDay, year, monthIndex, dayIndex)
            && !DateNoLater(w.nextSeasonYear, s[w.next].startingMonth, s[w.next].startingDay, year, monthIndex, dayIndex)
  {
    var w := Window(s, year, monthIndex, dayIndex);
    var found := LastStartingBy(s, monthIndex, dayIndex);
    if found == -1 {
      assert !StartsBy(s[0], monthIndex, dayIndex);
    } else if found < |s| - 1 {
      assert !StartsBy(s[found + 1], monthIndex, dayIndex);
    }
  }

  /** The year rollover: the active season belongs to the previous year
      exactly when no season starts by the date (the last season wrapped
      around from the year before), and the next season's year then is the
      date's own year. */
  lemma WindowYearRollover(s: seq<Season>, year: int, monthIndex: int, dayIndex: int)
    requires |s| > 0
    ensures var w := Window(s, year, monthIndex, dayIndex);
            && (w.seasonYear == year - 1 <==> LastStartingBy(s, monthIndex, dayIndex) == -1)
            && (w.seasonYear == year - 1 ==> w.index == |s| - 1 && w.nextSeasonYear == year)
            && (w.index == |s| - 1 ==> w.nextSeasonYear == w.seasonYear + 1)
            && (w.index < |s| - 1 ==> w.nextSeasonYear == w.seasonYear == year)
  {
  }
}

=== FILE: walks.dfy ===
/** The backward walk of secondsToDate (src/classes/calendar/index.ts:571-604)
    as a loop invariant and the steps that keep it: the walk starts on the
    last day of the year before year zero and steps back by whole years,
    whole months and single days. Also the proof that each date walk's
    contract leaves one date only (index.ts:571-632). */
module DateWalks {
  import opened CalendarShape

  /** How far the walk's day number lies from the day it stands for. A
      whole-year step keeps the day set for the last month of the later
      year, so in the last month of year `y` the day is off by that month's
      length in year yearZero - 1 less its length in year `y`; in every
      other month the day is exact. A last month whose length does not
      depend on the leap-year rule never drifts. */
  function LastMonthDrift(cfg: YearConfig, y: int, m: int): (drift: int)
    requires 0 <= m < |cfg.months|
  {
    var last := cfg.months[|cfg.months| - 1];
    if m == |cfg.months| - 1
    then MonthDays(last, cfg.isLeapYear(cfg.yearZero - 1)) - MonthDays(last, cfg.isLeapYear(y))
    else 0
  }

  /** The invariant of the backward walk at year `y`, month `m`, day `d`
      with `dayCount` days still to walk towards the target day, which lies
      `dayCount0` days (none if negative) before the last day of year
      yearZero - 1. While days are left to walk, the target plus the days
      left is the last day of the month, or lies inside the month; once none
      are left the target lies inside the month, or just before an empty
      last month. */
  ghost predicate BackwardInv(cfg: YearConfig, dayCount0: int,
                             y: int, isLeapYear: bool, m: int, d: int, dayCount: int)
  {
    var months := cfg.months;
    var n := |months|;
    var target := -1 - (if dayCount0 < 0 then 0 else dayCount0);
    var left := if dayCount < 0 then 0 else dayCount;
    && cfg.WellFormed()
    && 0 <= m < n && y <= cfg.yearZero - 1 && isLeapYear == cfg.isLeapYear(y)
    && dayCount <= dayCount0 && (dayCount >= 0 || dayCount == dayCount0)
    && (dayCount >= cfg.YearDays(y) ==> m == n - 1)
    && (0 <= dayCount < cfg.YearDays(y) ==> dayCount < DaysBefore(months, isLeapYear, m + 1))
    && (m == n - 1 || MonthDays(months[m], isLeapYear) > 0)
    && target + left <= cfg.DayNumber(y, m, 0) + MonthDays(months[m], isLeapYear) - 1
    && (left >= MonthDays(months[m], isLeapYear) ==>
          target + left == cfg.DayNumber(y, m, 0) + MonthDays(months[m], isLeapYear) - 1)
    && (left < MonthDays(months[m], isLeapYear) ==> cfg.DayNumber(y, m, 0) <= target)
    && (m < n - 1 ==> target < cfg.YearStart(y + 1) - 1)
    && cfg.DayNumber(y, m, d) - left == target + LastMonthDrift(cfg, y, m)
    && (dayCount0 <= 0 ==>
          y == cfg.yearZero - 1 && m == n - 1 && d == MonthDays(months[n - 1], cfg.isLeapYear(cfg.yearZero - 1)) - 1)
  }

  /** Where the backward walk ends when its target day lies `walk` days
      before the last day of year yearZero - 1: before year zero; on that
      last day when `walk` is 0; in the month that holds the target day, or
      in an empty last month whose year ends just after it; and on the
      target day itself but for the last month's drift. On the last day of
      a year the walk stays in the last month, even when that month has no
      days. */
  ghost predicate BackwardEnd(cfg: YearConfig, walk: int, y: int, m: int, d: int) {
    var n := |cfg.months|;
    var target := -1 - walk;
    && y <= cfg.yearZero - 1 && 0 <= m < n
    && (walk == 0 ==>
          y == cfg.yearZero - 1 && m == n - 1 && d == MonthDays(cfg.months[n - 1], cfg.isLeapYear(cfg.yearZero - 1)) - 1)
    && (var md := MonthDays(cfg.months[m], cfg.isLeapYear(y));
        || (md > 0 && cfg.DayNumber(y, m, 0) <= target < cfg.DayNumber(y, m, 0) + md)
        || (md == 0 && m == n - 1 && target == cfg.DayNumber(y, m, 0) - 1))
    && (target == cfg.YearStart(y + 1) - 1 ==> m == n - 1)
    && cfg.DayNumber(y, m, d) == target + LastMonthDrift(cfg, y, m)
  }

  /** What each pass of the backward walk decreases: twice the days left,
      plus one while the walk sits in a month with no days this year. */
  function BackwardMeasure(cfg: YearConfig, isLeapYear: bool, m: int, dayCount: int): (measure: int)
    requires 0 <= m < |cfg.months|
  {
    2 * dayCount + (if MonthDays(cfg.months[m], isLeapYear) == 0 then 1 else 0)
  }

  /** The walk starts on the last day of the year before year zero. */
  lemma BackwardStart(cfg: YearConfig, dayCount0: int)
    requires cfg.WellFormed()
    ensures var y := cfg.yearZero - 1;
            var n := |cfg.months|;
            BackwardInv(cfg, dayCount0, y, cfg.isLeapYear(y), n - 1,
                        MonthDays(cfg.months[n - 1], cfg.isLeapYear(y)) - 1, dayCount0)
  {
    var y := cfg.yearZero - 1;
    var n := |cfg.months|;
    var leap := cfg.isLeapYear(y);
    assert cfg.YearStart(y) == -cfg.YearDays(y);
    assert DaysBefore(cfg.months, leap, n) == DaysBefore(cfg.months, leap, n - 1) + MonthDays(cfg.months[n - 1], leap);
    SumDaysNonNegative(cfg.months, leap, true, n - 1);
  }

  /** A whole-year step keeps the invariant: the days left fill the year,
      so the walk sits on the year's last day plus the days left, and taking
      the year off lands on the last day of the year before. */
  lemma BackwardYearKeeps(cfg: YearConfig, dayCount0: int,
                          y: int, isLeapYear: bool, m: int, d: int, dayCount: int)
    requires BackwardInv(cfg, dayCount0, y, isLeapYear, m, d, dayCount)
    requires dayCount > 0 && dayCount >= TotalNumberOfDays(cfg.months, isLeapYear, true)
    ensures BackwardInv(cfg, dayCount0, y - 1, cfg.isLeapYear(y - 1), m, d,
                        dayCount - TotalNumberOfDays(cfg.months, isLeapYear, true))
  {
    var n := |cfg.months|;
    var leap := cfg.isLeapYear(y - 1);
    assert cfg.YearStart(y - 1) == cfg.YearStart(y) - cfg.YearDays(y - 1);
    assert DaysBefore(cfg.months, isLeapYear, n) == DaysBefore(cfg.months, isLeapYear, n - 1) + MonthDays(cfg.months[n - 1], isLeapYear);
    SumDaysNonNegative(cfg.months, isLeapYear, true, n - 1);
    assert DaysBefore(cfg.months, leap, n) == DaysBefore(cfg.months, leap, n - 1) + MonthDays(cfg.months[n - 1], leap);
    SumDaysNonNegative(cfg.months, leap, true, n - 1);
  }

  /** A month step, as the backward walk's month step makes it, keeps the invariant. */
  lemma BackwardMonthKeeps(cfg: YearConfig, dayCount0: int, y: int, isLeapYear: bool,
                           m0: int, d0: int, dayCount: int, m: int, d: int)
    requires BackwardInv(cfg, dayCount0, y, isLeapYear, m0, d0, dayCount)
    requires dayCount > 0 && dayCount < TotalNumberOfDays(cfg.months, isLeapYear, true)
    requires MonthDays(cfg.months[m0], isLeapYear) <= dayCount
    requires 0 <= m < m0 && MonthDays(cfg.months[m], isLeapYear) > 0
    requires d == MonthDays(cfg.months[m], isLeapYear) - 1
    requires DaysBefore(cfg.months, isLeapYear, m + 1) == DaysBefore(cfg.months, isLeapYear, m0)
    requires dayCount - MonthDays(cfg.months[m0], isLeapYear) < DaysBefore(cfg.months, isLeapYear, m + 1)
    ensures BackwardInv(cfg, dayCount0, y, isLeapYear, m, d,
                        dayCount - MonthDays(cfg.months[m0], isLeapYear))
  {
    assert DaysBefore(cfg.months, isLeapYear, m + 1) == DaysBefore(cfg.months, isLeapYear, m) + MonthDays(cfg.months[m], isLeapYear);
  }

  /** A single-day step keeps the invariant. */
  lemma BackwardDayKeeps(cfg: YearConfig, dayCount0: int,
                         y: int, isLeapYear: bool, m: int, d: int, dayCount: int)
    requires BackwardInv(cfg, dayCount0, y, isLeapYear, m, d, dayCount)
    requires dayCount > 0 && dayCount < TotalNumberOfDays(cfg.months, isLeapYear, true)
    requires dayCount < MonthDays(cfg.months[m], isLeapYear)
    ensures BackwardInv(cfg, dayCount0, y, isLeapYear, m, d - 1, dayCount - 1)
  {
  }

  /** Stepping a whole year back from the last month keeps the walk's
      position exactly when the last month has the same length in both
      years, which a last month of fixed length always has. */
  lemma BackwardYearStep(cfg: YearConfig, y: int, d: int, dayCount: int, stable: bool)
    requires cfg.WellFormed()
    requires stable <==> cfg.months[|cfg.months| - 1].numberOfDays == cfg.months[|cfg.months| - 1].numberOfLeapYearDays
    requires y < cfg.yearZero && dayCount >= cfg.YearDays(y)
    ensures var n := |cfg.months|;
            var last := cfg.months[n - 1];
            && cfg.YearStart(y - 1) == cfg.YearStart(y) - cfg.YearDays(y - 1)
            && cfg.YearDays(y) >= MonthDays(last, cfg.isLeapYear(y))
            && (MonthDays(last, cfg.isLeapYear(y - 1)) == MonthDays(last, cfg.isLeapYear(y))
                <==>
                cfg.YearStart(y - 1) + DaysBefore(cfg.months, cfg.isLeapYear(y - 1), n - 1) + d - (dayCount - cfg.YearDays(y))
                == cfg.YearStart(y) + DaysBefore(cfg.months, cfg.isLeapYear(y), n - 1) + d - dayCount)
            && (stable ==> MonthDays(last, cfg.isLeapYear(y - 1)) == MonthDays(last, cfg.isLeapYear(y)))
  {
    var n := |cfg.months|;
    SumDaysNonNegative(cfg.months, cfg.isLeapYear(y), true, n - 1);
    assert DaysBefore(cfg.months, cfg.isLeapYear(y), n)
           == DaysBefore(cfg.months, cfg.isLeapYear(y), n - 1) + MonthDays(cfg.months[n - 1], cfg.isLeapYear(y));
    assert DaysBefore(cfg.months, cfg.isLeapYear(y - 1), n)
           == DaysBefore(cfg.months, cfg.isLeapYear(y - 1), n - 1) + MonthDays(cfg.months[n - 1], cfg.isLeapYear(y - 1));
  }

  //---------------------------------------------------------------------------
  // Each walk's end is one date
  //---------------------------------------------------------------------------

  /** A date as the forward walk leaves it: day `d` lies in month `m`, or is
      day 0 of an empty first month, and the first day of a year is always
      in month 0. */
  ghost predicate ForwardSpot(cfg: YearConfig, y: int, m: int, d: int) {
    && 0 <= m < |cfg.months| && d >= 0
    && (d < MonthDays(cfg.months[m], cfg.isLeapYear(y)) || (m == 0 && d == 0))
    && (m > 0 ==> DaysBefore(cfg.months, cfg.isLeapYear(y), m) + d > 0)
  }

  /** Two dates the forward walk may leave with the same day number are the
      same date, so the forward walk's contract fixes its result. */
  lemma ForwardSpotUnique(cfg: YearConfig, y1: int, m1: int, d1: int, y2: int, m2: int, d2: int)
    requires cfg.WellFormed()
    requires ForwardSpot(cfg, y1, m1, d1) && ForwardSpot(cfg, y2, m2, d2)
    requires cfg.DayNumber(y1, m1, d1) == cfg.DayNumber(y2, m2, d2)
    ensures y1 == y2 && m1 == m2 && d1 == d2
  {
    var dn := cfg.DayNumber(y1, m1, d1);
    ForwardSpotInYear(cfg, y1, m1, d1);
    ForwardSpotInYear(cfg, y2, m2, d2);
    YearOfDay(cfg, y1, y2, dn);
    var leap := cfg.isLeapYear(y1);
    var months := cfg.months;
    if d1 < MonthDays(months[m1], leap) && d2 < MonthDays(months[m2], leap) {
      MonthOfDay(months, leap, m1, m2, dn - cfg.YearStart(y1));
    }
  }

  /** A date the forward walk may leave lies in its year. */
  lemma ForwardSpotInYear(cfg: YearConfig, y: int, m: int, d: int)
    requires cfg.WellFormed() && ForwardSpot(cfg, y, m, d)
    ensures cfg.YearStart(y) <= cfg.DayNumber(y, m, d) < cfg.YearStart(y + 1)
  {
    var leap := cfg.isLeapYear(y);
    var n := |cfg.months|;
    YearStartNext(cfg, y);
    SumDaysNonNegative(cfg.months, leap, true, m);
    DaysBeforeMonotone(cfg.months, leap, m + 1, n);
  }

  /** The walk's position is one date: two ends the backward walk may reach
      for the same walk length are the same date, so the backward walk's
      contract fixes its result. */
  lemma BackwardEndUnique(cfg: YearConfig, walk: int, y1: int, m1: int, d1: int, y2: int, m2: int, d2: int)
    requires cfg.WellFormed()
    requires BackwardEnd(cfg, walk, y1, m1, d1) && BackwardEnd(cfg, walk, y2, m2, d2)
    ensures y1 == y2 && m1 == m2 && d1 == d2
  {
    var target := -1 - walk;
    BackwardEndInYear(cfg, walk, y1, m1, d1);
    BackwardEndInYear(cfg, walk, y2, m2, d2);
    YearOfDay(cfg, y1, y2, target);
    var leap := cfg.isLeapYear(y1);
    var months := cfg.months;
    if MonthDays(months[m1], leap) > 0 && MonthDays(months[m2], leap) > 0 {
      MonthOfDay(months, leap, m1, m2, target - cfg.YearStart(y1));
    }
  }

  /** The target day of a backward walk's end lies in the year it ends in. */
  lemma BackwardEndInYear(cfg: YearConfig, walk: int, y: int, m: int, d: int)
    requires cfg.WellFormed() && BackwardEnd(cfg, walk, y, m, d)
    ensures cfg.YearStart(y) <= -1 - walk < cfg.YearStart(y + 1)
  {
    var leap := cfg.isLeapYear(y);
    var n := |cfg.months|;
    YearStartNext(cfg, y);
    SumDaysNonNegative(cfg.months, leap, true, m);
    DaysBeforeMonotone(cfg.months, leap, m + 1, n);
    assert DaysBefore(cfg.months, leap, m + 1) == DaysBefore(cfg.months, leap, m) + MonthDays(cfg.months[m], leap);
  }

  /** A year ends where the next one starts. */
  lemma YearStartNext(cfg: YearConfig, y: int)
    ensures cfg.YearStart(y + 1) == cfg.YearStart(y) + cfg.YearDays(y)
  {
  }

  /** Later years start later. */
  lemma {:induction false} YearStartMonotone(cfg: YearConfig, a: int, b: int)
    requires cfg.WellFormed() && a <= b
    ensures cfg.YearStart(a) <= cfg.YearStart(b)
    decreases b - a
  {
    if a < b {
      YearStartNext(cfg, a);
      YearStartMonotone(cfg, a + 1, b);
    }
  }

  /** A day number lies in one year only. */
  lemma YearOfDay(cfg: YearConfig, y1: int, y2: int, dayNumber: int)
    requires cfg.WellFormed()
    requires cfg.YearStart(y1) <= dayNumber < cfg.YearStart(y1 + 1)
    requires cfg.YearStart(y2) <= dayNumber < cfg.YearStart(y2 + 1)
    ensures y1 == y2
  {
    if y1 < y2 {
      YearStartMonotone(cfg, y1 + 1, y2);
    } else if y2 < y1 {
      YearStartMonotone(cfg, y2 + 1, y1);
    }
  }

  /** The days before a later month are at least those before an earlier one. */
  lemma {:induction false} DaysBeforeMonotone(months: seq<Month>, leap: bool, i: nat, j: nat)
    requires NonNegativeDays(months) && i <= j <= |months|
    ensures DaysBefore(months, leap, i) <= DaysBefore(months, leap, j)
  {
    if i < j {
      DaysBeforeMonotone(months, leap, i, j - 1);
    }
  }

  /** A day of the year lies in one month with days only. */
  lemma MonthOfDay(months: seq<Month>, leap: bool, m1: int, m2: int, day: int)
    requires NonNegativeDays(months) && 0 <= m1 < |months| && 0 <= m2 < |months|
    requires DaysBefore(months, leap, m1) <= day < DaysBefore(months, leap, m1 + 1)
    requires DaysBefore(months, leap, m2) <= day < DaysBefore(months, leap, m2 + 1)
    ensures m1 == m2
  {
    if m1 < m2 {
      DaysBeforeMonotone(months, leap, m1 + 1, m2);
    } else if m2 < m1 {
      DaysBeforeMonotone(months, leap, m2 + 1, m1);
    }
  }
}

=== FILE: weeks.dfy ===
/** The month view's grid of weeks (src/classes/calendar/index.ts:469-507):
    blank cells up to the weekday the month starts on, then the month's days
    in order, then blank cells to the end of the last week. */
module WeekGrid {
  import opened Arithmetic

  /** A cell of the grid: `false` in the source, or the month's day with the
      given 0-based index. */
  datatype Cell = Blank | Day(index: int)

  /** The cell at position `j` (counted row by row from 0) of a grid that
      begins with `lead` blank cells and then holds `dayCount` days. */
  function CellAt(lead: int, dayCount: int, j: int): (cell: Cell) {
    if lead <= j < lead + dayCount then Day(j - lead) else Blank
  }

  /** Math.ceil(a / b) for a non-negative `a` and positive `b`. */
  function CeilDiv(a: int, b: int): (quotient: int)
    requires a >= 0 && b > 0
  {
    (a + b - 1) / b
  }

  /** The rounded-up quotient covers `a` and one row fewer would not. */
  lemma CeilDivBounds(a: int, b: int)
    requires a >= 0 && b > 0
    ensures CeilDiv(a, b) >= 0
    ensures CeilDiv(a, b) * b >= a
    ensures a > 0 ==> (CeilDiv(a, b) - 1) * b < a
    ensures a == 0 ==> CeilDiv(a, b) == 0
  {
    var q := CeilDiv(a, b);
    DivMulLe(a + b - 1, b);
    if a == 0 {
      ModSmall(b - 1, b);
    } else {
      DivGe(a + b - 1, b, 1);
      assert (a + b - 1) - q * b < b;
    }
  }

  /** `row` is row `r` of the grid: `weekLength` cells starting at position r * weekLength. */
  ghost predicate RowIs(row: seq<Cell>, lead: int, dayCount: int, weekLength: int, r: int) {
    && |row| == weekLength
    && forall c :: 0 <= c < weekLength ==> row[c] == CellAt(lead, dayCount, r * weekLength + c)
  }

  /** `weeks` is a grid of rows of `weekLength` cells whose cells, read row
      by row, are `lead` blanks, the days 0 .. dayCount-1, then blanks; every
      day has a cell and the last row holds at least one day. */
  ghost predicate GridOf(weeks: seq<seq<Cell>>, lead: int, dayCount: int, weekLength: int)
    requires weekLength > 0
  {
    && |weeks| >= 1
    && (forall r :: 0 <= r < |weeks| ==> RowIs(weeks[r], lead, dayCount, weekLength, r))
    && lead + dayCount <= |weeks| * weekLength
    && (|weeks| - 1) * weekLength < lead + dayCount
  }

  /** The loops of daysIntoWeeks for a month of `dayCount` days whose first
      day falls on weekday `dayOfWeekOffset`: the first week is padded with
      blanks up to that weekday, and further full weeks follow until every
      day is placed. An offset past the week's end leaves the first week blank. */
  method BuildWeeks(dayCount: int, dayOfWeekOffset: int, weekLength: int) returns (weeks: seq<seq<Cell>>)
    requires dayCount >= 0 && dayOfWeekOffset >= 0
    ensures dayCount == 0 || weekLength <= 0 ==> weeks == []
    ensures dayCount > 0 && weekLength > 0 ==>
              GridOf(weeks, Min(dayOfWeekOffset, weekLength), dayCount, weekLength)
  {
    weeks := [];
    if dayCount > 0 && weekLength > 0 {
      ghost var lead := Min(dayOfWeekOffset, weekLength);
      var startingWeek, dayOffset := StartingWeek(dayCount, dayOfWeekOffset, weekLength);
      weeks := [startingWeek];
      assert RowIs(startingWeek, lead, dayCount, weekLength, 0);
      var numWeeks := CeilDiv(dayCount - dayOffset, weekLength);
      RowCount(dayCount, dayOffset, lead, weekLength);
      var i := 0;
      while i < numWeeks
        invariant 0 <= i <= numWeeks
        invariant |weeks| == i + 1
        invariant forall r :: 0 <= r < |weeks| ==> RowIs(weeks[r], lead, dayCount, weekLength, r)
      {
        var w := FollowingWeek(dayCount, dayOffset, i, weekLength, lead);
        weeks := weeks + [w];
        i := i + 1;
      }
    }
  }

  /** The first week plus the rounded-up number of further weeks hold every
      day, and the last of them holds at least one. */
  lemma RowCount(dayCount: int, dayOffset: int, lead: int, weekLength: int)
    requires weekLength > 0 && 0 <= lead <= weekLength && 0 <= dayOffset <= dayCount && dayCount > 0
    requires dayOffset == dayCount || dayOffset == weekLength - lead
    requires dayOffset + lead <= weekLength
    ensures CeilDiv(dayCount - dayOffset, weekLength) >= 0
    ensures lead + dayCount <= (CeilDiv(dayCount - dayOffset, weekLength) + 1) * weekLength
    ensures CeilDiv(dayCount - dayOffset, weekLength) * weekLength < lead + dayCount
  {
    var n := CeilDiv(dayCount - dayOffset, weekLength);
    CeilDivBounds(dayCount - dayOffset, weekLength);
    assert (n + 1) * weekLength == n * weekLength + weekLength;
    if dayCount - dayOffset > 0 {
      assert (n - 1) * weekLength == n * weekLength - weekLength;
    }
  }

  /** The first loop of daysIntoWeeks: the first week, and how many days it holds. */
  method StartingWeek(dayCount: int, dayOfWeekOffset: int, weekLength: int)
    returns (startingWeek: seq<Cell>, dayOffset: int)
    requires dayCount > 0 && dayOfWeekOffset >= 0 && weekLength > 0
    ensures |startingWeek| == weekLength
    ensures forall c :: 0 <= c < weekLength ==>
              startingWeek[c] == CellAt(Min(dayOfWeekOffset, weekLength), dayCount, c)
    ensures 0 <= dayOffset <= dayCount
    ensures dayOffset == dayCount || dayOffset == weekLength - Min(dayOfWeekOffset, weekLength)
    ensures dayOffset + Min(dayOfWeekOffset, weekLength) <= weekLength
  {
    ghost var lead := Min(dayOfWeekOffset, weekLength);
    startingWeek := [];
    dayOffset := 0;
    var i := 0;
    while i < weekLength
      invariant 0 <= i <= weekLength
      invariant |startingWeek| == i
      invariant forall c :: 0 <= c < i ==> startingWeek[c] == CellAt(lead, dayCount, c)
      invariant dayOffset == if i <= dayOfWeekOffset then 0 else Min(i - dayOfWeekOffset, dayCount)
    {
      if i < dayOfWeekOffset {
        startingWeek := startingWeek + [Blank];
      } else {
        var dayIndex := i - dayOfWeekOffset;
        if dayIndex < dayCount {
          startingWeek := startingWeek + [Day(dayIndex)];
          dayOffset := dayOffset + 1;
        } else {
          startingWeek := startingWeek + [Blank];
        }
      }
      i := i + 1;
    }
  }

  /** The inner loop of daysIntoWeeks: week `i` after the first one. */
  method FollowingWeek(dayCount: int, dayOffset: int, i: int, weekLength: int, ghost lead: int)
    returns (w: seq<Cell>)
    requires weekLength > 0 && i >= 0 && 0 <= lead <= weekLength
    requires dayOffset == dayCount || dayOffset == weekLength - lead
    requires dayOffset < dayCount
    ensures RowIs(w, lead, dayCount, weekLength, i + 1)
  {
    ghost var rowStart := (i + 1) * weekLength;
    assert rowStart == i * weekLength + weekLength;
    MulLeMono(0, i, weekLength);
    w := [];
    var d := 0;
    while d < weekLength
      invariant 0 <= d <= weekLength
      invariant |w| == d
      invariant forall c :: 0 <= c < d ==> w[c] == CellAt(lead, dayCount, rowStart + c)
    {
      var dayIndex := dayOffset + (i * weekLength) + d;
      if dayIndex < dayCount {
        w := w + [Day(dayIndex)];
      } else {
        w := w + [Blank];
      }
      d := d + 1;
    }
  }

  function Min(a: int, b: int): (least: int) {
    if a < b then a else b
  }

  /** Day `k` of the month sits in row (lead + k) / weekLength, column
      (lead + k) % weekLength, and in no other cell. */
  lemma DayPlacement(weeks: seq<seq<Cell>>, lead: int, dayCount: int, weekLength: int, k: int)
    requires weekLength > 0 && lead >= 0 && 0 <= k < dayCount
    requires GridOf(weeks, lead, dayCount, weekLength)
    ensures 0 <= (lead + k) / weekLength < |weeks|
    ensures weeks[(lead + k) / weekLength][(lead + k) % weekLength] == Day(k)
    ensures forall r, c :: 0 <= r < |weeks| && 0 <= c < weekLength && weeks[r][c] == Day(k) ==>
              r * weekLength + c == lead + k
  {
    var j := lead + k;
    DivLt(j, weekLength, |weeks|);
    DivMulLe(j, weekLength);
    assert (j / weekLength) * weekLength + j % weekLength == j;
  }
}

=== FILE: wrappers.dfy ===
/** A value that may be absent: JavaScript's `undefined`/`null` for an optional field. */
module Wrappers {

  datatype Option<+T> = None | Some(value: T) {

    /** The value if present, otherwise `default` (the `x ?? default` reading of an optional field). */
    function GetOr(default: T): (value: T) {
      match this
      case Some(v) => v
      case None => default
    }
  }
}
